=== FILE: README.md ===
# waka-relay, modelled in Dafny

waka-relay is a small HTTP server that sits between WakaTime editor
plugins and several WakaTime-compatible servers ("instances"). It works in
four steps:

1. It checks the caller's `Basic` credential against the configured key.
2. It forwards every request to the first configured instance (the
   *primary*) and answers with the primary's response.
3. It mirrors the same request, in the background, to every other instance
   (the *secondaries*). It logs a secondary whose status lands on the other
   side of success from the primary's.
4. On the way, it rewrites each outbound request:
   - it sets the instance's own credential;
   - it stamps the relay's token onto the user agent;
   - for heartbeats, it stamps the token onto each event's `user_agent` too.

   On the two status-bar endpoints it also puts the primary's
   human-readable total through a template.

The model covers that decision and rewrite logic as pure functions over
strings, header maps and a small JSON tree. The network and the framework
are not modelled. What an instance answers, and what a body decodes to, are
inputs.

| module | file | models |
|---|---|---|
| `Common` | common.dfy | `Option` |
| `Json` | json.dfy | the JSON tree: ordered objects, `d.get`, `d[k] = v`, Python truthiness. The TOML configuration table is the same kind of value. |
| `Text` | text.dfy | `startswith`, `endswith`, `find`, `rfind`, `split(" ")[1]`, `str.replace` |
| `Bytes` | bytes.dfy | bytes, ASCII, UTF-8 encoding of `str.encode()` |
| `Base64` | base64.dfy | `base64.b64encode`; `base64.b64decode`, as the non-validating decoder it is |
| `Url` | url.dfy | the path component of `urllib.parse.urlparse`; `make_url`; the quoting a redirect applies to its location |
| `Gate` | gate.dfy | `verify_key` |
| `Dispatch` | dispatch.dfy | `is_heartbeat`, `is_success`, `handle_single_request` |
| `StatusBar` | statusbar.dfy | the status-bar edit in `catch_everything` |
| `Relay` | relay.dfy | `root`, `no_instances_check`, `catch_everything`, the `STATUS_MAP` lookup |

How Python behaviour is represented:

- **Raised exceptions.** An exception the code does not catch is an
  explicit outcome. In `Gate` it is `Crash`; in `Relay` it is
  `ServerError`, the framework's 500 answer. In `Dispatch`, a call that
  raises is a trace with no outcome.
- **HTTP errors.** An `HTTPException` that is raised becomes `Refused`.
- **Configuration.** The configuration is the relay table of the TOML
  file, as a JSON object; an empty table means "not loaded".
- **Handler variants.** `Relay.Variant` selects the handler as written
  (`AsWritten`) or with the two findings below corrected (`Corrected`).

## Model

| member | source | states |
|---|---|---|
| Json.Lookup | relay/main.py:94-95 | `d.get(k)` finds a value exactly when `k` is one of the object's keys, and the value found is bound to `k` |
| Json.Update | relay/main.py:185-187 | `d[k] = v`: afterwards `k` is bound to `v`; the key order is unchanged when `k` was present, and `k` is appended when it was new |
| Json.UpdateFrame | relay/main.py:185-187 | `d[k] = v` leaves the binding of every other key unchanged |
| Text.ReplaceWithoutOccurrence | relay/main.py:185-187 | `str.replace` with a pattern that does not occur returns the text unchanged |
| Text.ReplaceLeading | relay/main.py:185-187 | `str.replace` replaces a leading occurrence of the pattern and continues after it |
| Bytes.Utf8Encode | relay/main.py:281 | `str.encode()` gives 1 to 4 bytes per character; an ASCII text gives its character codes |
| Base64.Encode | relay/main.py:281 | `b64encode` gives four ASCII characters per started group of three bytes, with no space among them |
| Base64.Decode | relay/main.py:109 | `b64decode` of a text refuses any non-ASCII character; a successful decode comes from ASCII input |
| Base64.DecodeEncode | relay/main.py:280-282 | decoding what the relay encodes gives back the original bytes, for every byte string |
| Base64.ScanEncoding | relay/main.py:109 | scanning an encoding yields its bytes, then continues with what follows when the encoding ends on a full group and stops at its padding otherwise |
| Base64.DecodeSkipsForeign | relay/main.py:109 | the decoder does not validate: an ASCII character outside the alphabet, other than `=`, can be deleted from any position without changing the result |
| Url.PathOf | relay/main.py:256 | `urlparse(url).path` never holds the query or the fragment: it has no `?` and no `#` |
| Url.MakeUrl | relay/main.py:254-261 | the result starts with the base and ends with the path; it is `base + path` exactly when the base's parsed path ends in `/`, and `base + "/" + path` otherwise |
| Url.PathOfAuthorityForm | relay/main.py:256 | `urlparse("scheme://host/path").path` is `/path` for a plain host and a path without `?`, `#` or `;` |
| Url.JoinAuthorityForm | relay/main.py:254-261 | joining onto `scheme://host/basePath` inserts a `/` exactly when `basePath` does not end in one |
| Url.JoinBareHost | relay/main.py:254-261 | a base with no path, such as `https://a.example`, gets the separator: `https://a.example/p` |
| Gate.BasicCredential | relay/main.py:280-282 | the header the relay sends starts with `Basic ` and decodes to the UTF-8 bytes of the instance key |
| Gate.Compare | relay/main.py:109-113 | the decoded token is accepted exactly when it is the ASCII bytes of a string key. The check raises exactly when the token is not valid base64, its bytes are not ASCII (not UTF-8, or text `compare_digest` refuses), the key is not a string, or the key is not ASCII. Every other token gets 401 "Invalid API key." |
| Gate.Check | relay/main.py:90-113 | the gate never answers 422; it refuses with 500 exactly when the configuration is empty; every other refusal is 401; a loaded configuration that does not require a key admits; an admitted request under a required key carried a `Basic ` header whose token decodes to the ASCII bytes of the configured string key |
| Gate.EmptyConfigurationRefuses | relay/main.py:90-92 | an empty configuration refuses with 500 "Configuration not loaded.", whatever the header |
| Gate.MissingConfiguredKeyRefuses | relay/main.py:94-99 | a required but falsy configured key refuses with 401 "API key is missing from the config.", whatever the header |
| Gate.MissingDistinctFromMalformed | relay/main.py:101-107 | a missing or empty header gets "API key is required."; a non-empty header without the scheme gets "Invalid API key format."; the two answers differ |
| Gate.AdmitsExactlyTheSecret | relay/main.py:105-113 | with a non-empty ASCII key and a `Basic ` header, the request is admitted if and only if the token decodes to the key. A token that decodes to other ASCII bytes gets 401 "Invalid API key.". The check raises exactly when the token does not decode or decodes to non-ASCII bytes |
| Gate.OwnCredentialAdmitted | relay/main.py:105-113 | the credential the relay itself would send for the configured key passes the gate |
| Gate.CheckAsWritten | relay/main.py:77 | with the header declared without a default, a request without `authorization` is answered 422 before any check runs |
| Gate.MissingHeaderAnswers422AsWritten | relay/main.py:77-94 | under every loaded configuration that does not require a key, a request without `authorization` gets 422 as written, though the corrected gate admits it |
| Gate.Token | relay/main.py:109 | `authorization.split(" ")[1]` for a header that starts with `Basic `: the text after the scheme up to the next space, which holds no space |
| Dispatch.HeartbeatEndpoints | relay/main.py:234-251 | a JSON POST to either heartbeat endpoint is a heartbeat; a non-POST or a request without a content type never is. The test is on the full URL, so a query string after the endpoint defeats it whenever the query's last character is neither `s` nor `k`. A query that itself ends in the endpoint text, such as `?next=/users/current/heartbeats`, still passes; the lemma does not cover that case |
| Dispatch.RewriteHeaders | relay/main.py:275-300 | the outbound headers exist exactly when the inbound request has a user agent; they carry the instance credential and the stamped user agent, have no `host` or `content-length`, and keep every other inbound header |
| Dispatch.OutboundHeaders | relay/main.py:275-300 | for a string key, `authorization` is `Basic ` plus the encoded key whatever the caller sent, `user-agent` is the inbound one plus ` waka-relay/0.1.0`, `host` and `content-length` are gone, and every other header is as received |
| Dispatch.StampItem | relay/main.py:288-290 | a list element is stampable exactly when it is not an object, or is an object whose `user_agent` is a string or a list; a stamped object changes only its `user_agent`, by the token once |
| Dispatch.StampItems | relay/main.py:288-290 | the loop succeeds exactly when every element is stampable; then the list keeps its length and order and each element is stamped |
| Dispatch.StampEvents | relay/main.py:286-297 | an object or string body is re-serialised unchanged; a number, boolean or null body raises; a list is stamped element by element |
| Dispatch.OutboundBody | relay/main.py:284-297 | a non-heartbeat is never rewritten. The body is re-serialised if and only if the request is a heartbeat whose body decodes and whose stamping does not raise, and the new body is then the stamped value, with no log record. A heartbeat sent raw, including one whose body is a number, boolean or null, wrote exactly one log record |
| Dispatch.HeartbeatListStamped | relay/main.py:284-291 | a heartbeat list whose objects all carry a string or list user agent goes out with every object stamped once and the length and order kept |
| Dispatch.HeartbeatFallsBackToRawBody | relay/main.py:285-297 | a heartbeat that does not decode, or whose list has an object that cannot be stamped, goes out with the inbound bytes and one log record |
| Dispatch.Prepare | relay/main.py:273-300 | an outbound request is built exactly when the key is a string and the caller sent a user agent; it has the inbound verb, the instance URL, the rewritten headers and the rewritten body |
| Dispatch.Absorb | relay/main.py:306-326 | the kept outcome has the reply's status and content type, and its headers minus `content-length`. Its body is the decoded JSON when the content type says JSON, and the reply's text otherwise. It fails exactly when the content type says JSON and the body does not decode |
| Dispatch.Send | relay/main.py:264-326 | a call sends what `Prepare` builds; it has an outcome only when it sent and the instance answered, and that outcome is `Absorb` of the answer. The rewrite warnings `Prepare` logged come first in the call's log, and the only records after them are status-mismatch warnings |
| Dispatch.DivergenceCases | relay/main.py:309-311 | with `is_success` as 200..299: an absent or zero expected status never reports; two statuses on the same side never report; statuses on opposite sides with a non-zero expected one always report |
| Dispatch.MismatchReportedIffDiverges | relay/main.py:309-317 | a status mismatch is logged if and only if the call reached the instance and an expected status was given, non-zero, and on the other side of 200..299 from the actual one; the record names the URL and both statuses |
| Dispatch.PrimaryNeverReportsMismatch | relay/main.py:159-163 | the primary call, which passes no expected status, never logs a mismatch |
| StatusBar.EditText | relay/main.py:184-187 | a falsy text leaves the object alone; a string text under a string template is replaced, with nothing else changed; any other case raises |
| StatusBar.EditTotal | relay/main.py:181-187 | a missing `grand_total` counts as an empty object, so nothing changes; a `grand_total` that is not an object raises; otherwise the edit of its `text` decides whether the edit keeps or raises, and a replaced `grand_total` is written back into `data` with nothing else changed |
| StatusBar.EditData | relay/main.py:181-187 | a missing `data` counts as an empty object, so nothing changes; a `data` that is not an object raises; otherwise the edit of its `grand_total` decides whether the edit keeps or raises, and a replaced `data` is written back into the body with nothing else changed |
| StatusBar.Transform | relay/main.py:177-187 | other paths pass the body unchanged. On a status-bar path, a text body or a JSON body that is not an object raises, and an object body raises exactly when the edit of its `data` raises. A changed body is a JSON body on a status-bar path |
| StatusBar.TextSubstituted | relay/main.py:177-187 | on a status-bar path, a non-empty `data.grand_total.text` becomes the template with every `%TEXT%` replaced by it, and no other field at any level changes |
| StatusBar.MissingTotalLeavesBody | relay/main.py:181-184 | without `data`, or without `grand_total`, the body is unchanged |
| StatusBar.EmptyTextLeavesBody | relay/main.py:184 | an empty or missing text leaves the body unchanged, whatever the template |
| StatusBar.DefaultTemplateAppends | relay/main.py:185 | the default template `%TEXT% (Relayed)` turns any text `x` into `x + " (Relayed)"` |
| StatusBar.DefaultTemplateRelayed | relay/main.py:177-187 | under the default template a non-empty text, such as "3 hrs", becomes "3 hrs (Relayed)", and nothing else changes |
| Relay.StatusPhrase | relay/main.py:54-65 | the log's reason phrase is the table's entry, and is empty exactly for a status the table lacks |
| Relay.NoInstancesCheck | relay/main.py:216-231 | an error 500 "No WakaTime instances configured." exactly when the instances value is falsy; for a table, exactly when it is empty |
| Relay.Returned | relay/main.py:153-154 | a returned (not raised) error reaches the client as status 200 with media type `application/json`; the body is an object with `status_code` the error's status, `detail` its detail and `headers` null |
| Url.Quote | relay/main.py:125 | the `location` of a redirect is its URL quoted: the result holds only ASCII letters, digits, `_.-~` and ``:/%#?=@[]!$&'()*+,;`` and is at least as long as the URL |
| Url.QuoteKeeps | relay/main.py:125 | a URL made only of those characters is its own quoting |
| Url.QuoteIdempotent | relay/main.py:125 | quoting a quoted URL changes nothing more |
| Relay.Root | relay/main.py:116-125 | `/` redirects with 307 to the quoted first configured base URL whenever the instances table is non-empty; without instances it gives the no-instances answer |
| Relay.RootRedirectsToPrimary | relay/main.py:120-125 | `/` redirects with 307 to the first instance's base URL, quoted, and to the URL verbatim when it needs no escape |
| Relay.RootWithoutInstances | relay/main.py:120-123 | without instances, `/` answers 500 when corrected, and 200 as written |
| Relay.Admission | relay/main.py:128-133 | the catch-all route runs the gate on the `authorization` header. Corrected, that is always `Gate.Check`. As written, it is `Gate.Check` when the header is present and the 422 answer when it is absent |
| Relay.Mirror | relay/main.py:165-175 | one background call per secondary, in configuration order, each given its instance and the primary's status as the expected one |
| Relay.Run | relay/main.py:168-174 | a call sends its request to the base URL joined with the route's path |
| Relay.FanOut | relay/main.py:156-213 | the primary is the first instance, called with no expected status; if it raises, no secondary starts and the answer is 500. An answered primary is relayed with its status, its edited body, its headers and its content type, or it is answered with 500 when the status-bar edit raises. A relayed response comes with an access log line |
| Relay.CatchAll | relay/main.py:128-213 | a request the gate does not admit reaches no instance and writes no access line; a missing header answers 422 and a gate that raises answers 500. A request that reaches an instance was admitted and found instances configured |
| Relay.RefusedNotDispatched | relay/main.py:128-133 | a refused request gets the gate's status and reason and reaches no instance |
| Relay.NoInstancesRefused | relay/main.py:151-154 | an admitted request without instances gets 500 "No WakaTime instances configured." and reaches no instance |
| Relay.EmptyInstancesAnswer200AsWritten | relay/main.py:153-154 | as written, the same request gets status 200 instead, with the error as the body |
| Relay.PrimaryThenSecondaries | relay/main.py:156-175 | the primary call goes to the first instance at the joined URL; when it completes, the rest of the instances get the request in order, each expecting the primary's status; when it raises, the answer is 500 and no secondary runs |
| Relay.ResponseMirrorsPrimary | relay/main.py:189-213 | a relayed response has the primary's status, its headers minus `content-length` and its content type. Off the status-bar paths its body is the primary's answer, decoded JSON under a JSON content type and text otherwise. The access line records the status and its phrase. Off the status-bar paths an answered primary is always relayed |
| Relay.SecondariesCannotAffectResponse | relay/main.py:159-213 | the secondaries' answers cannot change the response, the access line or the primary call |
| Relay.PrimaryAnswerForwarded | relay/main.py:156-213 | off the status-bar paths, an admitted request whose primary answers gets exactly that answer: the instance's status, its headers minus `content-length`, its `content-type` header as the media type (empty when absent), and its body as JSON under a JSON content type and as text otherwise |
| Relay.StatusBarRelayed | relay/main.py:177-213 | on a status-bar path, with the default template, the primary's non-empty total text reaches the client with " (Relayed)" appended and nothing else changed |

## Left out

- FastAPI routing and dependency injection: each route is a function from
  a request record to a response record. A POST, PUT or DELETE to `/`
  reaching the catch-all route is not modelled.
- The network:
  - the httpx client, its timeouts and connection limits are not modelled;
  - an instance's answer is an input, and `Unreachable` stands for every
    transport failure.
- Concurrency:
  - `REQUEST_SEMAPHORE` is not modelled;
  - the background tasks of `asyncio.create_task` are recorded only as the
    calls they are given (`Relay.Job`), not as interleaved executions.
- Configuration loading through toml and the filesystem
  (`get_existing_config_path` and what follows it): the configuration is an
  input table.
  - A TOML table cannot repeat a key, so tables with repeated keys are not
    considered.
- Logging:
  - the debug `packets.log` writes are not modelled;
  - of the access log, only the method, path, status and reason phrase are
    kept. The client address, latency and HTTP version are not.
  - Log records of `handle_single_request` are kept as `Dispatch.Log`
    values without their text.
- JSON decoding and encoding:
  - decoding is an input of the request and the reply (`Dispatch.Parse`);
  - encoding is kept abstract (`Dispatch.Body.Serialized`);
  - `JSONResponse`'s encoding of a text body is not modelled.
  - A decoded JSON object is assumed to have distinct keys. `json.loads`
    keeps the last of repeated keys, while `Json.Lookup` reads the first
    binding, so bodies with repeated keys are not considered.
- Starlette's caching of `request.json()`: the model stamps a freshly
  decoded body in every call. With the cache, the primary and the
  secondaries share one decoded list, which each call stamps in place, so a
  later call can see the stamps of earlier ones. This sharing is not
  modelled.
- Header multimaps: headers are a map from lower-case name to one value.
  The collapse of repeated headers by `dict(request.headers)` is not
  modelled.
- `urlparse`'s stripping of whitespace and control characters, and its
  checks on invalid netlocs: the model takes the scheme, authority,
  fragment, query and parameters apart as `urlparse` does for ordinary URLs.
- `compare_digest` timing: it is plain equality, raising on non-ASCII text
  as `compare_digest` does on `str` arguments. Non-ASCII decoded bytes
  therefore always raise, and the `.decode()` step needs no UTF-8 decoder.

## Findings

| source | as written | input that shows it | evidently intended | confidence | as-written member | corrected member |
|---|---|---|---|---|---|---|
| relay/main.py:77 | `authorization: str = Header()` has no default, so the framework rejects a request without the header with 422 before `verify_key` runs. The `if not authorization` branch can only see an empty header. | configuration `require_api_key = false`; a request with no `authorization` header; answered 422 | a request without the header is admitted when no key is required, and is refused with 401 "API key is required." when one is | not executed | Gate.CheckAsWritten, Gate.MissingHeaderAnswers422AsWritten | Gate.Check, Gate.MissingDistinctFromMalformed |
| relay/main.py:153-154 | `no_instances_check` returns the `HTTPException` and the handlers return it. The framework serialises it as an ordinary value: status 200 with body `{"status_code": 500, "detail": "No WakaTime instances configured.", "headers": null}`. | configuration without `instances`; any admitted request, or `GET /`; answered 200 | the error is raised, answering 500 "No WakaTime instances configured." | not executed | Relay.EmptyInstancesAnswer200AsWritten, Relay.RootWithoutInstances | Relay.NoInstancesRefused, Relay.RootWithoutInstances |

=== FILE: base64.dfy ===
/**
 * Base64 as the relay uses it (RFC 4648, section 4, standard alphabet):
 * `base64.b64encode` for the credential it sends upstream, and
 * `base64.b64decode` in its default, non-validating mode for the credential
 * it receives. That decoder skips characters outside the alphabet, stops at
 * the padding that completes a quantum, and fails when the data characters
 * leave an incomplete quantum.
 */
module Base64 {
  import opened Common
  import opened Bytes

  /** The sextet a character stands for, or 64 for a character outside the alphabet. */
  function Sextet(c: char): (v: int)
    ensures 0 <= v <= 64
    ensures c == '=' ==> v == 64
  {
    if 'A' <= c <= 'Z' then c as int - 65
    else if 'a' <= c <= 'z' then c as int - 97 + 26
    else if '0' <= c <= '9' then c as int - 48 + 52
    else if c == '+' then 62
    else if c == '/' then 63
    else 64
  }

  /** The alphabet character for sextet `i`. */
  function SextetChar(i: int): (c: char)
    requires 0 <= i < 64
    ensures Sextet(c) == i
    ensures c as int < 128
    ensures c != '=' && c != ' '
  {
    if i < 26 then (65 + i) as char
    else if i < 52 then (97 + i - 26) as char
    else if i < 62 then (48 + i - 52) as char
    else if i == 62 then '+'
    else '/'
  }

  /** `base64.b64encode(b).decode()`: four characters per three bytes, the last group padded with `=`. */
  function Encode(b: seq<byte>): (s: string)
    ensures |s| == (|b| + 2) / 3 * 4
    ensures forall i :: 0 <= i < |s| ==> s[i] as int < 128 && s[i] != ' '
    decreases |b|
  {
    if |b| == 0 then ""
    else if |b| == 1 then
      [SextetChar(b[0] / 4), SextetChar(b[0] % 4 * 16), '=', '=']
    else if |b| == 2 then
      [SextetChar(b[0] / 4), SextetChar(b[0] % 4 * 16 + b[1] / 16), SextetChar(b[1] % 16 * 4), '=']
    else
      [SextetChar(b[0] / 4), SextetChar(b[0] % 4 * 16 + b[1] / 16),
       SextetChar(b[1] % 16 * 4 + b[2] / 64), SextetChar(b[2] % 64)]
      + Encode(b[3..])
  }

  /**
   * The decoder's state between characters: `pos` data characters of the
   * current quantum seen so far, and the bits of the last one not yet
   * emitted (`left`, narrower as the quantum fills).
   */
  predicate ScanState(pos: int, left: int) {
    && 0 <= pos <= 3
    && 0 <= left
    && (pos == 1 ==> left < 64)
    && (pos == 2 ==> left < 16)
    && (pos == 3 ==> left < 4)
  }

  /**
   * The non-validating decoding loop over the rest `s` of the input, having
   * produced `out` so far and seen `pads` padding characters since the last
   * data character. `None` is the decoder's error (an incomplete quantum).
   */
  function Scan(s: string, pos: int, left: int, pads: int, out: seq<byte>): (r: Option<seq<byte>>)
    requires ScanState(pos, left)
    ensures r.Some? ==> |out| <= |r.value| && r.value[..|out|] == out
    decreases |s|
  {
    if s == [] then
      (if pos == 0 then Some(out) else None)
    else if s[0] == '=' then
      if pos >= 2 && pos + pads + 1 >= 4 then Some(out)
      else if pos >= 2 then Scan(s[1..], pos, left, pads + 1, out)
      else Scan(s[1..], pos, left, pads, out)
    else
      var v := Sextet(s[0]);
      if v == 64 then Scan(s[1..], pos, left, pads, out)
      else if pos == 0 then Scan(s[1..], 1, v, 0, out)
      else if pos == 1 then Scan(s[1..], 2, v % 16, 0, out + [left * 4 + v / 16])
      else if pos == 2 then Scan(s[1..], 3, v % 4, 0, out + [left * 16 + v / 4])
      else Scan(s[1..], 0, 0, 0, out + [left * 64 + v])
  }

  /**
   * `base64.b64decode(s)` for a text `s`: a text with a non-ASCII character
   * is refused before decoding starts.
   */
  function Decode(s: string): (r: Option<seq<byte>>)
    ensures r.Some? ==> IsAscii(s)
  {
    if !IsAscii(s) then None else Scan(s, 0, 0, 0, [])
  }

  /** One full quantum of four alphabet characters yields its three bytes. */
  lemma ScanQuantum(c0: char, c1: char, c2: char, c3: char, rest: string, left: int, pads: int, out: seq<byte>)
    requires Sextet(c0) < 64 && Sextet(c1) < 64 && Sextet(c2) < 64 && Sextet(c3) < 64
    requires ScanState(0, left)
    ensures Scan([c0, c1, c2, c3] + rest, 0, left, pads, out)
         == Scan(rest, 0, 0, 0, out + [Sextet(c0) * 4 + Sextet(c1) / 16,
                                       Sextet(c1) % 16 * 16 + Sextet(c2) / 4,
                                       Sextet(c2) % 4 * 64 + Sextet(c3)])
  {
    var v0, v1, v2, v3 := Sextet(c0), Sextet(c1), Sextet(c2), Sextet(c3);
    var s1, s2, s3 := [c1, c2, c3] + rest, [c2, c3] + rest, [c3] + rest;
    var o1 := out + [v0 * 4 + v1 / 16];
    var o2 := o1 + [v1 % 16 * 16 + v2 / 4];
    assert ([c0, c1, c2, c3] + rest)[1..] == s1;
    assert s1[1..] == s2 && s2[1..] == s3 && s3[1..] == rest;
    assert Scan([c0, c1, c2, c3] + rest, 0, left, pads, out) == Scan(s1, 1, v0, 0, out);
    assert Scan(s1, 1, v0, 0, out) == Scan(s2, 2, v1 % 16, 0, o1);
    assert Scan(s2, 2, v1 % 16, 0, o1) == Scan(s3, 3, v2 % 4, 0, o2);
    assert o2 + [v2 % 4 * 64 + v3] == out + [v0 * 4 + v1 / 16, v1 % 16 * 16 + v2 / 4, v2 % 4 * 64 + v3];
  }

  /** The sextets `Encode` writes for three bytes give those bytes back. */
  lemma QuantumArithmetic(x: byte, y: byte, z: byte)
    ensures var v0, v1, v2, v3 := x / 4, x % 4 * 16 + y / 16, y % 16 * 4 + z / 64, z % 64;
      && v0 * 4 + v1 / 16 == x
      && v1 % 16 * 16 + v2 / 4 == y
      && v2 % 4 * 64 + v3 == z
  {
    var v1 := x % 4 * 16 + y / 16;
    assert v1 / 16 == x % 4 && v1 % 16 == y / 16;
    var v2 := y % 16 * 4 + z / 64;
    assert v2 / 4 == y % 16 && v2 % 4 == z / 64;
  }

  /** The padded encoding of one last byte yields that byte and ends the scan. */
  lemma ScanTailOne(x: byte, rest: string, out: seq<byte>)
    ensures Scan(Encode([x]) + rest, 0, 0, 0, out) == Some(out + [x])
  {
    var v0, v1 := x / 4, x % 4 * 16;
    var s0, s1, s2 := Encode([x]) + rest, [SextetChar(v1), '=', '='] + rest, ['=', '='] + rest;
    assert s0[0] == SextetChar(v0) && s0[1..] == s1;
    assert s1[0] == SextetChar(v1) && s1[1..] == s2;
    assert s2[0] == '=' && s2[1..] == ['='] + rest;
    var o1 := out + [v0 * 4 + v1 / 16];
    assert Scan(s0, 0, 0, 0, out) == Scan(s1, 1, v0, 0, out);
    assert Scan(s1, 1, v0, 0, out) == Scan(s2, 2, v1 % 16, 0, o1);
    assert Scan(s2, 2, v1 % 16, 0, o1) == Scan(['='] + rest, 2, v1 % 16, 1, o1);
  }

  /** The padded encoding of two last bytes yields those bytes and ends the scan. */
  lemma ScanTailTwo(x: byte, y: byte, rest: string, out: seq<byte>)
    ensures Scan(Encode([x, y]) + rest, 0, 0, 0, out) == Some(out + [x, y])
  {
    var v0, v1, v2 := x / 4, x % 4 * 16 + y / 16, y % 16 * 4;
    var s0, s1, s2 := Encode([x, y]) + rest, [SextetChar(v1), SextetChar(v2), '='] + rest, [SextetChar(v2), '='] + rest;
    assert s0[0] == SextetChar(v0) && s0[1..] == s1;
    assert s1[0] == SextetChar(v1) && s1[1..] == s2;
    assert s2[0] == SextetChar(v2) && s2[1..] == ['='] + rest;
    assert v1 / 16 == x % 4 && v1 % 16 == y / 16;
    var o1 := out + [v0 * 4 + v1 / 16];
    var o2 := o1 + [v1 % 16 * 16 + v2 / 4];
    assert Scan(s0, 0, 0, 0, out) == Scan(s1, 1, v0, 0, out);
    assert Scan(s1, 1, v0, 0, out) == Scan(s2, 2, v1 % 16, 0, o1);
    assert Scan(s2, 2, v1 % 16, 0, o1) == Scan(['='] + rest, 3, v2 % 4, 0, o2);
    assert o2 == out + [x, y];
  }

  /** The encoding of three leading bytes is one full quantum that yields them. */
  lemma ScanLeadingTriple(b: seq<byte>, rest: string, out: seq<byte>)
    requires |b| >= 3
    ensures Scan(Encode(b) + rest, 0, 0, 0, out) == Scan(Encode(b[3..]) + rest, 0, 0, 0, out + b[..3])
  {
    var v0, v1, v2, v3 := b[0] / 4, b[0] % 4 * 16 + b[1] / 16, b[1] % 16 * 4 + b[2] / 64, b[2] % 64;
    var q := [SextetChar(v0), SextetChar(v1), SextetChar(v2), SextetChar(v3)];
    assert Encode(b) == q + Encode(b[3..]);
    assert Encode(b) + rest == q + (Encode(b[3..]) + rest);
    ScanQuantum(q[0], q[1], q[2], q[3], Encode(b[3..]) + rest, 0, 0, out);
    QuantumArithmetic(b[0], b[1], b[2]);
    assert b[..3] == [b[0], b[1], b[2]];
  }

  /** Scanning the encoding of fewer than three bytes. */
  lemma ScanShortEncoding(b: seq<byte>, rest: string, out: seq<byte>)
    requires |b| < 3
    ensures Scan(Encode(b) + rest, 0, 0, 0, out)
         == if |b| == 0 then Scan(rest, 0, 0, 0, out) else Some(out + b)
  {
    if |b| == 0 {
      assert Encode(b) + rest == rest;
    } else if |b| == 1 {
      assert b == [b[0]];
      ScanTailOne(b[0], rest, out);
    } else {
      assert b == [b[0], b[1]];
      ScanTailTwo(b[0], b[1], rest, out);
    }
  }

  /**
   * Scanning an encoding continues with the rest of the input when the
   * encoding ends on a full quantum, and stops at its padding otherwise.
   */
  lemma {:induction false} ScanEncoding(b: seq<byte>, rest: string, out: seq<byte>)
    ensures Scan(Encode(b) + rest, 0, 0, 0, out)
         == if |b| % 3 == 0 then Scan(rest, 0, 0, 0, out + b) else Some(out + b)
    decreases |b|, 1
  {
    if |b| < 3 {
      ScanShortEncoding(b, rest, out);
      assert |b| == 0 ==> out + b == out;
    } else {
      ScanLongEncoding(b, rest, out);
    }
  }

  /** The inductive step of `ScanEncoding`: the leading quantum, then the rest of the encoding. */
  lemma {:induction false} ScanLongEncoding(b: seq<byte>, rest: string, out: seq<byte>)
    requires |b| >= 3
    ensures Scan(Encode(b) + rest, 0, 0, 0, out)
         == if |b| % 3 == 0 then Scan(rest, 0, 0, 0, out + b) else Some(out + b)
    decreases |b|, 0
  {
    ScanLeadingTriple(b, rest, out);
    ScanEncoding(b[3..], rest, out + b[..3]);
    DropThree(|b|);
    RejoinThree(out, b);
  }

  /** Splitting off three leading bytes and appending them back is the identity. */
  lemma RejoinThree(out: seq<byte>, b: seq<byte>)
    requires |b| >= 3
    ensures out + b[..3] + b[3..] == out + b
  {
    assert b[..3] + b[3..] == b;
  }

  /** Three fewer bytes leave the same remainder. */
  lemma DropThree(n: int)
    requires n >= 3
    ensures (n - 3) % 3 == n % 3
  {
  }

  /** Decoding undoes encoding: the relay can read back any credential it encodes. */
  lemma DecodeEncode(b: seq<byte>)
    ensures Decode(Encode(b)) == Some(b)
  {
    var s := Encode(b);
    assert IsAscii(s);
    ScanEncoding(b, "", []);
    assert s + "" == s;
  }

  /**
   * The decoder does not validate: a character outside the alphabet, other
   * than the padding character, is skipped wherever it stands.
   */
  lemma {:induction false} ScanSkipsForeign(a: string, c: char, b: string, pos: int, left: int, pads: int, out: seq<byte>)
    requires Sextet(c) == 64 && c != '='
    requires ScanState(pos, left)
    ensures Scan(a + [c] + b, pos, left, pads, out) == Scan(a + b, pos, left, pads, out)
    decreases |a|
  {
    if a == [] {
      assert a + [c] + b == [c] + b && ([c] + b)[1..] == b;
      assert a + b == b;
    } else {
      var x := a[0];
      assert (a + [c] + b)[0] == x && (a + [c] + b)[1..] == a[1..] + [c] + b;
      assert (a + b)[0] == x && (a + b)[1..] == a[1..] + b;
      var v := Sextet(x);
      if x == '=' {
        if pos >= 2 && pos + pads + 1 >= 4 {
        } else if pos >= 2 {
          ScanSkipsForeign(a[1..], c, b, pos, left, pads + 1, out);
        } else {
          ScanSkipsForeign(a[1..], c, b, pos, left, pads, out);
        }
      } else if v == 64 {
        ScanSkipsForeign(a[1..], c, b, pos, left, pads, out);
      } else if pos == 0 {
        ScanSkipsForeign(a[1..], c, b, 1, v, 0, out);
      } else if pos == 1 {
        ScanSkipsForeign(a[1..], c, b, 2, v % 16, 0, out + [left * 4 + v / 16]);
      } else if pos == 2 {
        ScanSkipsForeign(a[1..], c, b, 3, v % 4, 0, out + [left * 16 + v / 4]);
      } else {
        ScanSkipsForeign(a[1..], c, b, 0, 0, 0, out + [left * 64 + v]);
      }
    }
  }

  /** `b64decode` ignores an ASCII character outside the alphabet anywhere in its input. */
  lemma DecodeSkipsForeign(a: string, c: char, b: string)
    requires Sextet(c) == 64 && c != '=' && c as int < 128
    ensures Decode(a + [c] + b) == Decode(a + b)
  {
    ScanSkipsForeign(a, c, b, 0, 0, 0, []);
    assert IsAscii(a + [c] + b) <==> IsAscii(a + b) by {
      if IsAscii(a + b) {
        forall i | 0 <= i < |a + [c] + b|
          ensures (a + [c] + b)[i] as int < 128
        {
          if i < |a| {
            assert (a + [c] + b)[i] == (a + b)[i];
          } else if i > |a| {
            assert (a + [c] + b)[i] == (a + b)[i - 1];
          }
        }
      }
      if IsAscii(a + [c] + b) {
        forall i | 0 <= i < |a + b|
          ensures (a + b)[i] as int < 128
        {
          if i < |a| {
            assert (a + [c] + b)[i] == (a + b)[i];
          } else {
            assert (a + [c] + b)[i + 1] == (a + b)[i];
          }
        }
      }
    }
  }
}

=== FILE: bytes.dfy ===
/** Bytes, ASCII text and the UTF-8 encoding of Python's `str.encode()`. */
module Bytes {

  type byte = x: int | 0 <= x < 256

  /** Every character of `s` is ASCII. */
  predicate IsAscii(s: string) {
    forall i :: 0 <= i < |s| ==> s[i] as int < 128
  }

  /** Every byte of `b` is ASCII. */
  predicate AsciiOnly(b: seq<byte>) {
    forall i :: 0 <= i < |b| ==> b[i] < 128
  }

  /** The bytes of an ASCII text. */
  function AsciiBytes(s: string): (b: seq<byte>)
    requires IsAscii(s)
    ensures |b| == |s|
    ensures forall i :: 0 <= i < |s| ==> b[i] == s[i] as int
    ensures AsciiOnly(b)
  {
    if s == [] then [] else [s[0] as int] + AsciiBytes(s[1..])
  }

  /** `b.decode()` for ASCII bytes: one character per byte. */
  function AsciiText(b: seq<byte>): (s: string)
    requires AsciiOnly(b)
    ensures |s| == |b|
    ensures forall i :: 0 <= i < |b| ==> s[i] as int == b[i]
    ensures IsAscii(s)
  {
    if b == [] then [] else [b[0] as char] + AsciiText(b[1..])
  }

  /** The UTF-8 encoding of one Unicode scalar value (RFC 3629, section 3). */
  function EncodeScalar(c: char): (b: seq<byte>)
    ensures 1 <= |b| <= 4
    ensures |b| == 1 <==> c as int < 128
    ensures c as int < 128 ==> b == [c as int]
  {
    var n := c as int;
    if n < 0x80 then [n]
    else if n < 0x800 then [0xC0 + n / 0x40, 0x80 + n % 0x40]
    else if n < 0x10000 then [0xE0 + n / 0x1000, 0x80 + n / 0x40 % 0x40, 0x80 + n % 0x40]
    else [0xF0 + n / 0x40000, 0x80 + n / 0x1000 % 0x40, 0x80 + n / 0x40 % 0x40, 0x80 + n % 0x40]
  }

  /** `s.encode()`: the UTF-8 encoding of a text. */
  function Utf8Encode(s: string): (b: seq<byte>)
    ensures |s| <= |b| <= 4 * |s|
    ensures IsAscii(s) ==> b == AsciiBytes(s)
  {
    if s == [] then [] else EncodeScalar(s[0]) + Utf8Encode(s[1..])
  }
}

=== FILE: common.dfy ===
/** Small definitions shared by every module of the relay model. */
module Common {

  /** A value that may be absent: the model's stand-in for Python's `None`. */
  datatype Option<+T> = None | Some(value: T) {

    /** The value held, or `default` when there is none. */
    function GetOr(default: T): T {
      match this
      case Some(v) => v
      case None => default
    }
  }
}

=== FILE: dispatch.dfy ===
/**
 * One relayed call (`handle_single_request`): the outbound request built
 * for one instance from the inbound one, and what the relay keeps of the
 * instance's answer. The network call itself is not modelled: the
 * instance's answer is an input.
 */
module Dispatch {
  import opened Common
  import opened Json
  import opened Text
  import opened Bytes
  import Gate

  /** Header names are lower case, as the framework presents them. */
  type Headers = map<string, string>

  const Version := "0.1.0"

  /** What the relay appends to every user agent it forwards. */
  const RelayToken := " waka-relay/" + Version

  /** The result of decoding a body as JSON: a syntax error and a text-encoding error raise different exceptions. */
  datatype Parse = Parsed(value: Value) | Malformed | Undecodable

  /**
   * An inbound request. `url` is the full URL as received, `path` the part
   * after the leading `/` that the catch-all route captures, and `json` what
   * decoding `body` as JSON gives.
   */
  datatype Request = Request(
    verb: string,
    url: string,
    path: string,
    headers: Headers,
    body: seq<byte>,
    json: Parse)

  /** An outbound body: the inbound bytes, or the serialisation of a rewritten JSON value. */
  datatype Body = Raw(bytes: seq<byte>) | Serialized(value: Value)

  datatype Outbound = Outbound(verb: string, url: string, headers: Headers, body: Body)

  /** An instance's answer, or a transport failure (connection error, timeout). */
  datatype Upstream =
    | Unreachable
    | Reply(status: int, headers: Headers, text: string, json: Parse)

  /** A response body: decoded JSON, or text. */
  datatype Payload = JsonBody(value: Value) | TextBody(text: string)

  /** What the relay keeps of an instance's answer. */
  datatype Outcome = Outcome(status: int, content: Payload, headers: Headers, contentType: string)

  datatype Log =
    | DecodeFailed
    | UnexpectedError
    | StatusMismatch(status: int, url: string, expected: int)

  /**
   * One call: the request sent (none when building it raised), the log
   * records written, and the outcome (none when the call raised).
   */
  datatype Trace = Trace(sent: Option<Outbound>, logs: seq<Log>, outcome: Option<Outcome>)

  /** `headers.get(name, default)`. */
  function HeaderOr(h: Headers, name: string, default: string): string {
    if name in h then h[name] else default
  }

  /** `is_heartbeat`: a JSON POST to the heartbeat endpoint, single or bulk. */
  predicate IsHeartbeat(req: Request) {
    && StartsWith(HeaderOr(req.headers, "content-type", ""), "application/json")
    && req.verb == "POST"
    && (EndsWith(req.url, "/users/current/heartbeats") || EndsWith(req.url, "/users/current/heartbeats.bulk"))
  }

  /**
   * A JSON POST to either heartbeat endpoint is a heartbeat; nothing but a
   * POST with a JSON content type is. The test is on the full URL, so a
   * query string (here one not ending in `s` or `k`) defeats it.
   */
  lemma HeartbeatEndpoints(req: Request, prefix: string, q: string)
    ensures && req.verb == "POST"
            && StartsWith(HeaderOr(req.headers, "content-type", ""), "application/json")
            && (req.url == prefix + "/users/current/heartbeats" || req.url == prefix + "/users/current/heartbeats.bulk")
            ==> IsHeartbeat(req)
    ensures req.verb != "POST" ==> !IsHeartbeat(req)
    ensures "content-type" !in req.headers ==> !IsHeartbeat(req)
    ensures q != [] && q[|q| - 1] != 's' && q[|q| - 1] != 'k' && req.url == prefix + "/users/current/heartbeats?" + q
            ==> !IsHeartbeat(req)
  {
    var single, bulk := "/users/current/heartbeats", "/users/current/heartbeats.bulk";
    if req.url == prefix + single {
      assert req.url[|req.url| - |single|..] == single;
    }
    if req.url == prefix + bulk {
      assert req.url[|req.url| - |bulk|..] == bulk;
    }
    if q != [] && req.url == prefix + "/users/current/heartbeats?" + q {
      var u := req.url;
      assert u[|u| - 1] == q[|q| - 1];
      if EndsWith(u, single) {
        assert u[|u| - 1] == u[|u| - |single|..][|single| - 1] == 's';
      }
      if EndsWith(u, bulk) {
        assert u[|u| - 1] == u[|u| - |bulk|..][|bulk| - 1] == 'k';
      }
    }
  }

  /** `is_success`. */
  predicate IsSuccess(status: int) {
    200 <= status < 300
  }

  /**
   * A mirrored call is reported when an expected status was given, is not
   * zero, and falls on the other side of success from the actual one.
   */
  predicate Diverges(expected: Option<int>, actual: int) {
    expected.Some? && expected.value != 0 && IsSuccess(expected.value) != IsSuccess(actual)
  }

  /**
   * A case table for `Diverges`, spelled out in terms of the 200..299
   * range; `MismatchReportedIffDiverges` connects it to the call. A
   * mirrored status is never reported without an expected status or with
   * an expected status of 0 (which Python treats as false); never when both
   * statuses are in 200..299 or both outside it; always when exactly one
   * of them is in that range and the expected status is not 0.
   */
  lemma DivergenceCases(expected: Option<int>, actual: int)
    ensures expected == None || expected == Some(0) ==> !Diverges(expected, actual)
    ensures expected.Some? && (200 <= expected.value < 300 <==> 200 <= actual < 300) ==> !Diverges(expected, actual)
    ensures expected.Some? && expected.value != 0 && (200 <= expected.value < 300 <==> !(200 <= actual < 300))
            ==> Diverges(expected, actual)
  {
  }

  /** The headers the relay manages itself; every other header is forwarded as received. */
  const Managed: set<string> := {"authorization", "user-agent", "host", "content-length"}

  /**
   * The outbound headers for an instance with credential `key`: the
   * caller's credential replaced by the instance's, the relay token
   * appended to the user agent, `host` and `content-length` dropped. An
   * inbound request without a user agent makes the append raise.
   */
  function RewriteHeaders(inbound: Headers, key: string): (r: Option<Headers>)
    ensures r.None? <==> "user-agent" !in inbound
    ensures r.Some? ==>
      && "authorization" in r.value && r.value["authorization"] == Gate.BasicCredential(key)
      && "user-agent" in r.value && r.value["user-agent"] == inbound["user-agent"] + RelayToken
      && "host" !in r.value && "content-length" !in r.value
      && (forall k :: k in inbound && k !in Managed ==> k in r.value && r.value[k] == inbound[k])
      && (forall k :: k in r.value ==> k in inbound || k == "authorization")
  {
    if "user-agent" !in inbound then None
    else
      var h := inbound["authorization" := Gate.BasicCredential(key)];
      var h' := h["user-agent" := inbound["user-agent"] + RelayToken];
      Some(h' - {"host", "content-length"})
  }

  /** The relay token as the characters a list-valued user agent is extended with. */
  function TokenItems(s: string): (r: seq<Value>)
    ensures |r| == |s|
    ensures forall i :: 0 <= i < |s| ==> r[i] == Str([s[i]])
  {
    if s == [] then [] else [Str([s[0]])] + TokenItems(s[1..])
  }

  /**
   * A list element the stamping loop can process: anything but an object,
   * or an object whose `user_agent` supports `+=` with a string (a string,
   * or a list, which is extended by the string's characters).
   */
  predicate Stampable(x: Value) {
    match x
    case Obj(fs) => Lookup(fs, "user_agent").Some? && (Lookup(fs, "user_agent").value.Str? || Lookup(fs, "user_agent").value.Arr?)
    case _ => true
  }

  /** `y` is list element `x` after the loop: only an object's `user_agent` changed, by the token once. */
  ghost predicate Stamped(x: Value, y: Value) {
    match x
    case Obj(fs) =>
      && y.Obj?
      && Keys(y.fields) == Keys(fs)
      && (forall k :: k != "user_agent" ==> Lookup(y.fields, k) == Lookup(fs, k))
      && (match Lookup(fs, "user_agent")
          case Some(Str(u)) => Lookup(y.fields, "user_agent") == Some(Str(u + RelayToken))
          case Some(Arr(a)) => Lookup(y.fields, "user_agent") == Some(Arr(a + TokenItems(RelayToken)))
          case _ => false)
    case _ => y == x
  }

  /** One step of the loop over a heartbeat list; `None` when `+=` raises. */
  function StampItem(x: Value): (r: Option<Value>)
    ensures r.Some? <==> Stampable(x)
    ensures r.Some? ==> Stamped(x, r.value)
  {
    match x
    case Obj(fs) =>
      (match Lookup(fs, "user_agent")
       case Some(Str(u)) =>
         UpdateFrame(fs, "user_agent", Str(u + RelayToken));
         Some(Obj(Update(fs, "user_agent", Str(u + RelayToken))))
       case Some(Arr(a)) =>
         UpdateFrame(fs, "user_agent", Arr(a + TokenItems(RelayToken)));
         Some(Obj(Update(fs, "user_agent", Arr(a + TokenItems(RelayToken)))))
       case _ => None)
    case _ => Some(x)
  }

  /** The loop over a heartbeat list: all elements stamped, or `None` when one of them raises. */
  function StampItems(items: seq<Value>): (r: Option<seq<Value>>)
    ensures r.Some? <==> forall i :: 0 <= i < |items| ==> Stampable(items[i])
    ensures r.Some? ==> |r.value| == |items| && forall i :: 0 <= i < |items| ==> Stamped(items[i], r.value[i])
  {
    if items == [] then Some([])
    else
      match (StampItem(items[0]), StampItems(items[1..]))
      case (Some(y), Some(ys)) => Some([y] + ys)
      case _ => None
  }

  /**
   * The loop over a decoded heartbeat body. Iterating an object visits its
   * keys and iterating a string its characters, neither of which is an
   * object, so both come back as they were; numbers, booleans and null
   * cannot be iterated and raise.
   */
  function StampEvents(v: Value): (r: Option<Value>)
    ensures v.Obj? || v.Str? ==> r == Some(v)
    ensures v.Null? || v.Bool? || v.Num? ==> r.None?
    ensures v.Arr? ==> (r.Some? <==> forall i :: 0 <= i < |v.items| ==> Stampable(v.items[i]))
    ensures v.Arr? && r.Some? ==>
      r.value.Arr? && |r.value.items| == |v.items|
      && forall i :: 0 <= i < |v.items| ==> Stamped(v.items[i], r.value.items[i])
  {
    match v
    case Arr(items) =>
      (match StampItems(items)
       case Some(ys) => Some(Arr(ys))
       case None => None)
    case Obj(_) => Some(v)
    case Str(_) => Some(v)
    case _ => None
  }

  /** The outbound body and the log records its rewrite wrote. */
  datatype Rewritten = Rewritten(body: Body, logs: seq<Log>)

  /**
   * The outbound body: a heartbeat's decoded events are stamped and
   * re-serialised; when decoding or stamping raises, the error is logged
   * and the inbound bytes go out unchanged. Other requests are never
   * rewritten.
   */
  function OutboundBody(req: Request): (r: Rewritten)
    ensures !IsHeartbeat(req) ==> r == Rewritten(Raw(req.body), [])
    ensures r.body.Serialized? <==> IsHeartbeat(req) && req.json.Parsed? && StampEvents(req.json.value).Some?
    ensures r.body.Raw? ==> r.body.bytes == req.body
    ensures r.body.Serialized? ==>
      IsHeartbeat(req) && req.json.Parsed? && StampEvents(req.json.value) == Some(r.body.value) && r.logs == []
    ensures r.body.Raw? && IsHeartbeat(req) ==> |r.logs| == 1
  {
    if !IsHeartbeat(req) then Rewritten(Raw(req.body), [])
    else
      match req.json
      case Malformed => Rewritten(Raw(req.body), [DecodeFailed])
      case Undecodable => Rewritten(Raw(req.body), [UnexpectedError])
      case Parsed(v) =>
        match StampEvents(v)
        case Some(w) => Rewritten(Serialized(w), [])
        case None => Rewritten(Raw(req.body), [UnexpectedError])
  }

  /** The outbound request and the log records written while building it. */
  datatype Prepared = Prepared(sent: Option<Outbound>, logs: seq<Log>)

  /**
   * Building the outbound request: the configured credential must be a
   * string (`api_key.encode()` raises otherwise) and the inbound request
   * must carry a user agent.
   */
  function Prepare(req: Request, url: string, key: Value): (p: Prepared)
    ensures p.sent.Some? <==> key.Str? && "user-agent" in req.headers
    ensures p.sent.Some? ==>
      && p.sent.value.verb == req.verb
      && p.sent.value.url == url
      && RewriteHeaders(req.headers, key.s) == Some(p.sent.value.headers)
      && Rewritten(p.sent.value.body, p.logs) == OutboundBody(req)
    ensures p.sent.None? ==> p.logs == []
  {
    match key
    case Str(k) =>
      (match RewriteHeaders(req.headers, k)
       case None => Prepared(None, [])
       case Some(h) =>
         var rw := OutboundBody(req);
         Prepared(Some(Outbound(req.verb, url, h, rw.body)), rw.logs))
    case _ => Prepared(None, [])
  }

  /**
   * What the relay keeps of a reply: its status, its body decoded as JSON
   * when the content type says JSON (decoding failure raises) and as text
   * otherwise, its headers without `content-length`, and its content type.
   */
  function Absorb(reply: Upstream): (r: Option<Outcome>)
    requires reply.Reply?
    ensures r.Some? ==>
      && r.value.status == reply.status
      && "content-length" !in r.value.headers
      && (forall k :: k in reply.headers && k != "content-length" ==> k in r.value.headers && r.value.headers[k] == reply.headers[k])
      && (forall k :: k in r.value.headers ==> k in reply.headers)
      && r.value.contentType == HeaderOr(reply.headers, "content-type", "")
    ensures r.None? <==> StartsWith(HeaderOr(reply.headers, "content-type", ""), "application/json") && !reply.json.Parsed?
    ensures r.Some? ==>
      r.value.content == (if StartsWith(HeaderOr(reply.headers, "content-type", ""), "application/json")
                          then JsonBody(reply.json.value) else TextBody(reply.text))
  {
    var contentType := HeaderOr(reply.headers, "content-type", "");
    var headers := reply.headers - {"content-length"};
    if StartsWith(contentType, "application/json") then
      match reply.json
      case Parsed(v) => Some(Outcome(reply.status, JsonBody(v), headers, contentType))
      case _ => None
    else Some(Outcome(reply.status, TextBody(reply.text), headers, contentType))
  }

  /**
   * `handle_single_request`: build the outbound request, take the
   * instance's answer, report a status that diverges from `expected`, and
   * keep the outcome.
   */
  function Send(req: Request, url: string, key: Value, expected: Option<int>, upstream: Upstream): (t: Trace)
    ensures t.sent == Prepare(req, url, key).sent
    ensures t.outcome.Some? ==> t.sent.Some? && upstream.Reply? && t.outcome == Absorb(upstream)
    ensures t.sent.Some? && upstream.Reply? ==> t.outcome == Absorb(upstream)
    ensures Prepare(req, url, key).logs <= t.logs
    ensures forall i :: |Prepare(req, url, key).logs| <= i < |t.logs| ==> t.logs[i].StatusMismatch?
  {
    var p := Prepare(req, url, key);
    if p.sent.None? then Trace(None, p.logs, None)
    else
      match upstream
      case Unreachable => Trace(p.sent, p.logs, None)
      case Reply(status, _, _, _) =>
        var report := if Diverges(expected, status) then [StatusMismatch(status, url, expected.value)] else [];
        Trace(p.sent, p.logs + report, Absorb(upstream))
  }

  /**
   * A status mismatch is reported exactly when the call reached the
   * instance and its status diverges from the expected one, and it names
   * the instance's URL and both statuses.
   */
  lemma MismatchReportedIffDiverges(req: Request, url: string, key: Value, expected: Option<int>, upstream: Upstream)
    ensures var t := Send(req, url, key, expected, upstream);
      (exists i :: 0 <= i < |t.logs| && t.logs[i].StatusMismatch?)
      <==> t.sent.Some? && upstream.Reply? && Diverges(expected, upstream.status)
    ensures var t := Send(req, url, key, expected, upstream);
      forall i :: 0 <= i < |t.logs| && t.logs[i].StatusMismatch? ==>
        t.logs[i] == StatusMismatch(upstream.status, url, expected.value)
  {
    var p := Prepare(req, url, key);
    var t := Send(req, url, key, expected, upstream);
    assert forall i :: 0 <= i < |p.logs| ==> !p.logs[i].StatusMismatch?;
    if t.sent.Some? && upstream.Reply? && Diverges(expected, upstream.status) {
      assert t.logs == p.logs + [StatusMismatch(upstream.status, url, expected.value)];
      assert t.logs[|p.logs|].StatusMismatch?;
    } else {
      assert t.logs == p.logs;
    }
  }

  /** The primary call passes no expected status and so never reports a mismatch. */
  lemma PrimaryNeverReportsMismatch(req: Request, url: string, key: Value, upstream: Upstream)
    ensures forall i :: 0 <= i < |Send(req, url, key, None, upstream).logs| ==>
      !Send(req, url, key, None, upstream).logs[i].StatusMismatch?
  {
    MismatchReportedIffDiverges(req, url, key, None, upstream);
  }

  /**
   * The outbound headers, whatever the caller sent: the instance's own
   * credential, the stamped user agent, no `host` or `content-length`, and
   * every other header as received.
   */
  lemma OutboundHeaders(req: Request, url: string, k: string)
    requires "user-agent" in req.headers
    ensures var p := Prepare(req, url, Str(k));
      && p.sent.Some?
      && p.sent.value.headers["authorization"] == Gate.BasicCredential(k)
      && p.sent.value.headers["user-agent"] == req.headers["user-agent"] + RelayToken
      && "host" !in p.sent.value.headers && "content-length" !in p.sent.value.headers
      && forall h :: h in req.headers && h !in Managed ==> p.sent.value.headers[h] == req.headers[h]
  {
  }

  /**
   * A heartbeat list whose objects all carry a string or list user agent goes out
   * re-serialised with the same length and order, each object's user agent
   * stamped once and nothing else changed.
   */
  lemma HeartbeatListStamped(req: Request, items: seq<Value>)
    requires IsHeartbeat(req) && req.json == Parsed(Arr(items))
    requires forall i :: 0 <= i < |items| ==> Stampable(items[i])
    ensures var r := OutboundBody(req);
      && r.logs == []
      && r.body.Serialized? && r.body.value.Arr?
      && |r.body.value.items| == |items|
      && forall i :: 0 <= i < |items| ==> Stamped(items[i], r.body.value.items[i])
  {
  }

  /**
   * A heartbeat whose body does not decode, or whose list has an object
   * the loop cannot stamp, goes out with the inbound bytes and one log
   * record.
   */
  lemma HeartbeatFallsBackToRawBody(req: Request)
    requires IsHeartbeat(req)
    requires !req.json.Parsed? || (req.json.value.Arr? && exists i :: 0 <= i < |req.json.value.items| && !Stampable(req.json.value.items[i]))
    ensures OutboundBody(req).body == Raw(req.body)
    ensures |OutboundBody(req).logs| == 1
  {
  }
}

=== FILE: gate.dfy ===
/**
 * The credential gate (`verify_key`): an ordered chain of checks run before
 * any request is relayed. Each check either lets the request through or
 * refuses it with a status and a reason; a Python exception that the gate
 * does not catch ends the request with a server error.
 */
module Gate {
  import opened Common
  import opened Json
  import opened Text
  import opened Bytes
  import Base64

  datatype Verdict =
    | Admit
      /** An `HTTPException` raised by the gate. */
    | Refuse(status: int, detail: string)
      /** The web framework's 422 answer for a required header that is absent. */
    | Unprocessable
      /** An uncaught exception: answered 500 Internal Server Error. */
    | Crash

  const Scheme := "Basic "

  /** The header the relay sends to authenticate with `key`: the scheme and the base64 of its UTF-8 bytes. */
  function BasicCredential(key: string): (h: string)
    ensures StartsWith(h, Scheme)
    ensures Base64.Decode(h[|Scheme|..]) == Some(Utf8Encode(key))
  {
    var enc := Base64.Encode(Utf8Encode(key));
    Base64.DecodeEncode(Utf8Encode(key));
    assert (Scheme + enc)[|Scheme|..] == enc;
    Scheme + enc
  }

  /** `authorization.split(" ")[1]` for a header that starts with the scheme. */
  function Token(h: string): (t: string)
    requires StartsWith(h, Scheme)
    ensures ' ' !in t
    ensures StartsWith(h[|Scheme|..], t)
    ensures |t| < |h| - |Scheme| ==> h[|Scheme| + |t|] == ' '
  {
    TakeUntil(h[|Scheme|..], ' ')
  }

  /** `CONFIG.get("require_api_key", False)` is true. */
  predicate Required(config: Fields) {
    Truthy(Get(config, "require_api_key", Bool(false)))
  }

  /** `CONFIG.get("api_key")`. */
  function ConfiguredKey(config: Fields): Value {
    Get(config, "api_key", Null)
  }

  /**
   * The last step: `b64decode(token).decode()` compared with
   * `compare_digest` against the configured key. Invalid base64, bytes
   * that are not UTF-8, and text that is not ASCII (which `compare_digest`
   * refuses to compare) all raise.
   */
  function Compare(decoded: Option<seq<byte>>, key: Value): (v: Verdict)
    ensures v == Admit <==> decoded.Some? && key.Str? && IsAscii(key.s) && decoded.value == AsciiBytes(key.s)
    ensures v == Crash <==> decoded.None? || !AsciiOnly(decoded.value) || !key.Str? || !IsAscii(key.s)
    ensures v != Admit && v != Crash ==> v == Refuse(401, "Invalid API key.")
  {
    match decoded
    case None => Crash
    case Some(bs) =>
      if !AsciiOnly(bs) then Crash
      else match key
        case Str(k) =>
          if !IsAscii(k) then Crash
          else if AsciiText(bs) == k then Admit
          else Refuse(401, "Invalid API key.")
        case _ => Crash
  }

  /**
   * `verify_key`, for an `Authorization` header that may be absent. The
   * checks run in order: configuration loaded, key required, key
   * configured, header given, scheme, decoded key.
   */
  function Check(config: Fields, header: Option<string>): (v: Verdict)
    ensures v != Unprocessable
    ensures v.Refuse? && v.status == 500 <==> config == []
    ensures v.Refuse? ==> v.status == 500 || v.status == 401
    ensures config != [] && !Required(config) ==> v == Admit
    ensures v == Admit && Required(config) ==>
      header.Some? && StartsWith(header.value, Scheme)
      && ConfiguredKey(config).Str? && IsAscii(ConfiguredKey(config).s)
      && Base64.Decode(Token(header.value)) == Some(AsciiBytes(ConfiguredKey(config).s))
  {
    if config == [] then Refuse(500, "Configuration not loaded.")
    else if !Required(config) then Admit
    else if !Truthy(ConfiguredKey(config)) then Refuse(401, "API key is missing from the config.")
    else if header.None? || header.value == "" then Refuse(401, "API key is required.")
    else if !StartsWith(header.value, Scheme) then Refuse(401, "Invalid API key format.")
    else Compare(Base64.Decode(Token(header.value)), ConfiguredKey(config))
  }

  /**
   * The gate as the endpoint declares it: the header parameter has no
   * default, so the framework answers 422 before `verify_key` runs when
   * the header is absent.
   */
  function CheckAsWritten(config: Fields, header: Option<string>): (v: Verdict)
    ensures header.None? ==> v == Unprocessable
    ensures header.Some? ==> v == Check(config, header)
  {
    if header.None? then Unprocessable else Check(config, header)
  }

  /** An empty configuration refuses every request, whether or not a key is required. */
  lemma EmptyConfigurationRefuses(header: Option<string>)
    ensures Check([], header) == Refuse(500, "Configuration not loaded.")
  {
  }

  /** With a key required but none configured, every caller is refused the same way. */
  lemma MissingConfiguredKeyRefuses(config: Fields, header: Option<string>)
    requires config != [] && Required(config)
    requires !Truthy(ConfiguredKey(config))
    ensures Check(config, header) == Refuse(401, "API key is missing from the config.")
  {
  }

  /**
   * A missing or empty header is refused as missing, one without the
   * scheme as malformed: the two reasons differ.
   */
  lemma MissingDistinctFromMalformed(config: Fields, h: string)
    requires config != [] && Required(config) && Truthy(ConfiguredKey(config))
    requires h != "" && !StartsWith(h, Scheme)
    ensures Check(config, None) == Check(config, Some("")) == Refuse(401, "API key is required.")
    ensures Check(config, Some(h)) == Refuse(401, "Invalid API key format.")
    ensures Check(config, None) != Check(config, Some(h))
  {
  }

  /**
   * With a non-empty ASCII key `k` configured and required, a header with
   * the scheme is admitted exactly when its token decodes to `k`. A token
   * that decodes to other ASCII bytes is refused as invalid; a token that
   * does not decode, or decodes to bytes that are not ASCII, makes the
   * check raise.
   */
  lemma AdmitsExactlyTheSecret(config: Fields, k: string, h: string)
    requires Required(config)
    requires ConfiguredKey(config) == Str(k) && k != "" && IsAscii(k)
    requires StartsWith(h, Scheme)
    ensures Check(config, Some(h)) == Admit <==> Base64.Decode(Token(h)) == Some(AsciiBytes(k))
    ensures var d := Base64.Decode(Token(h));
      d.Some? && AsciiOnly(d.value) && d.value != AsciiBytes(k) ==> Check(config, Some(h)) == Refuse(401, "Invalid API key.")
    ensures var d := Base64.Decode(Token(h));
      d.None? || !AsciiOnly(d.value) <==> Check(config, Some(h)) == Crash
  {
  }

  /**
   * A relay's own outbound credential for key `k` passes the gate of a
   * relay configured with `k`: relays can be chained.
   */
  lemma OwnCredentialAdmitted(config: Fields, k: string)
    requires Required(config)
    requires ConfiguredKey(config) == Str(k) && k != "" && IsAscii(k)
    ensures Check(config, Some(BasicCredential(k))) == Admit
  {
    var h := BasicCredential(k);
    var enc := Base64.Encode(Utf8Encode(k));
    assert h[|Scheme|..] == enc;
    assert ' ' !in enc;
    assert IndexOf(enc, ' ') == |enc|;
    assert Token(h) == enc;
    AdmitsExactlyTheSecret(config, k, h);
  }

  /**
   * As written, an absent header is answered 422 under every loaded
   * configuration that does not require a key, where the gate would admit
   * anyone.
   */
  lemma MissingHeaderAnswers422AsWritten(config: Fields)
    requires config != [] && !Required(config)
    ensures Check(config, None) == Admit
    ensures CheckAsWritten(config, None) == Unprocessable
  {
  }
}

=== FILE: json.dfy ===
/**
 * The small JSON tree the relay reads and rewrites. Request and response
 * bodies are such trees once parsed, and so is the configuration table read
 * from the TOML file: the relay inspects both with the same dictionary
 * lookups, defaults and truthiness tests. Objects keep their fields in
 * insertion order, as Python dictionaries do; lookups see the first binding
 * of a key.
 */
module Json {
  import opened Common

  datatype Value =
    | Null
    | Bool(b: bool)
    | Num(n: real)
    | Str(s: string)
    | Arr(items: seq<Value>)
    | Obj(fields: seq<(string, Value)>)

  type Fields = seq<(string, Value)>

  /** The keys of an object, in order. */
  function Keys(fs: Fields): (ks: seq<string>)
    ensures |ks| == |fs|
    ensures forall i :: 0 <= i < |fs| ==> ks[i] == fs[i].0
  {
    if fs == [] then [] else [fs[0].0] + Keys(fs[1..])
  }

  /** `d.get(k)`: the value bound to `k`, if any. */
  function Lookup(fs: Fields, k: string): (r: Option<Value>)
    ensures r.Some? <==> k in Keys(fs)
    ensures r.Some? ==> (k, r.value) in fs
  {
    if fs == [] then None
    else if fs[0].0 == k then Some(fs[0].1)
    else Lookup(fs[1..], k)
  }

  /** `d.get(k, default)`. */
  function Get(fs: Fields, k: string, default: Value): Value {
    Lookup(fs, k).GetOr(default)
  }

  /**
   * `d[k] = v`: an existing binding is replaced where it stands, a new key
   * goes to the end. `UpdateFrame` states that no other key changes.
   */
  function Update(fs: Fields, k: string, v: Value): (r: Fields)
    ensures Lookup(r, k) == Some(v)
    ensures k in Keys(fs) ==> Keys(r) == Keys(fs)
    ensures k !in Keys(fs) ==> Keys(r) == Keys(fs) + [k]
  {
    if fs == [] then
      Cons((k, v), []);
      [(k, v)]
    else
      assert fs == [fs[0]] + fs[1..];
      Cons(fs[0], fs[1..]);
      if fs[0].0 == k then
        Cons((k, v), fs[1..]);
        [(k, v)] + fs[1..]
      else
        var rest := Update(fs[1..], k, v);
        Cons(fs[0], rest);
        [fs[0]] + rest
  }

  /** Updating `k` leaves the binding of every other key as it was. */
  lemma {:induction false} UpdateFrame(fs: Fields, k: string, v: Value)
    ensures forall k' :: k' != k ==> Lookup(Update(fs, k, v), k') == Lookup(fs, k')
    decreases |fs|
  {
    if fs == [] {
      Cons((k, v), []);
    } else {
      assert fs == [fs[0]] + fs[1..];
      Cons(fs[0], fs[1..]);
      if fs[0].0 == k {
        Cons((k, v), fs[1..]);
      } else {
        UpdateFrame(fs[1..], k, v);
        Cons(fs[0], Update(fs[1..], k, v));
      }
    }
  }

  /** Lookups and keys of an object with one more field in front. */
  lemma Cons(f: (string, Value), fs: Fields)
    ensures Keys([f] + fs) == [f.0] + Keys(fs)
    ensures forall k :: Lookup([f] + fs, k) == if f.0 == k then Some(f.1) else Lookup(fs, k)
  {
    assert ([f] + fs)[1..] == fs;
  }

  /** Python's truth value of a decoded JSON or TOML value. */
  predicate Truthy(v: Value) {
    match v
    case Null => false
    case Bool(b) => b
    case Num(n) => n != 0.0
    case Str(s) => s != ""
    case Arr(items) => items != []
    case Obj(fields) => fields != []
  }
}

=== FILE: relay.dfy ===
/**
 * The two routes of the relay: `/`, which redirects to the first
 * configured instance, and the catch-all route, which gates the request,
 * relays it to the primary (first) instance, mirrors it to every other
 * instance, and answers with the primary's outcome.
 */
module Relay {
  import opened Common
  import opened Json
  import opened Dispatch
  import Gate
  import Url
  import StatusBar

  /** What the client receives. */
  datatype Response =
    | Forwarded(status: int, content: Payload, headers: Headers, mediaType: string)
    | Redirect(status: int, location: string)
    | Refused(status: int, detail: string)
    | Unprocessable
    | ServerError

  /** An HTTP error built by the handler (FastAPI's `HTTPException`). */
  datatype HttpError = HttpError(status: int, detail: string)

  /** The fields of the access log line the model keeps. */
  datatype AccessLine = AccessLine(verb: string, path: string, status: int, phrase: string)

  /**
   * What one call to an instance is given: the instance's base URL and
   * credential, the status it is expected to agree with, and the
   * instance's answer.
   */
  datatype Job = Job(base: string, key: Value, expected: Option<int>, reply: Upstream)

  /**
   * One handled request: the response, the primary call (if one was made),
   * the calls started in the background for the secondaries, in
   * configuration order, and the access log line (written only when the
   * handler completes).
   */
  datatype Handled = Handled(response: Response, primary: Option<Trace>, secondaries: seq<Job>, access: Option<AccessLine>)

  /** The handler as written, or with its two departures from the evident intent corrected. */
  datatype Variant = AsWritten | Corrected

  /** The reason phrases the access log knows. */
  const StatusPhrases: map<int, string> := map[
    200 := "OK",
    201 := "Created",
    202 := "Accepted",
    302 := "Redirect",
    400 := "Bad Request",
    401 := "Unauthorized",
    403 := "Forbidden",
    404 := "Not Found",
    429 := "Too Many Requests",
    500 := "Server Error"
  ]

  /** The access log's reason phrase: empty exactly for the statuses it does not know. */
  function StatusPhrase(status: int): (p: string)
    ensures p == "" <==> status !in StatusPhrases
    ensures p != "" ==> StatusPhrases[status] == p
  {
    if status in StatusPhrases then StatusPhrases[status] else ""
  }

  /** `CONFIG.get("instances", {})`: base URL to credential. */
  function Instances(config: Fields): Value {
    Get(config, "instances", Obj([]))
  }

  /** `no_instances_check`: an error exactly when the instances value is falsy. */
  function NoInstancesCheck(instances: Value): (e: Option<HttpError>)
    ensures e.Some? <==> !Truthy(instances)
    ensures e.Some? ==> e.value.status == 500 && e.value.detail == "No WakaTime instances configured."
    ensures instances.Obj? ==> (e.None? <==> instances.fields != [])
  {
    if !Truthy(instances) then Some(HttpError(500, "No WakaTime instances configured.")) else None
  }

  /** An error raised from a handler: its status and detail are the response. */
  function Raised(e: HttpError): (r: Response)
    ensures r.Refused? && r.status == e.status && r.detail == e.detail
  {
    Refused(e.status, e.detail)
  }

  /**
   * An error returned from a handler: the framework serialises the
   * exception object's attributes as an ordinary JSON answer with status 200.
   */
  function Returned(e: HttpError): (r: Response)
    ensures r.Forwarded? && r.status == 200 && r.mediaType == "application/json"
    ensures r.content.JsonBody? && r.content.value.Obj?
    ensures Lookup(r.content.value.fields, "status_code") == Some(Num(e.status as real))
    ensures Lookup(r.content.value.fields, "detail") == Some(Str(e.detail))
    ensures Lookup(r.content.value.fields, "headers") == Some(Null)
  {
    Forwarded(200, JsonBody(Obj([("status_code", Num(e.status as real)), ("detail", Str(e.detail)), ("headers", Null)])), map[], "application/json")
  }

  /** How the handler hands its error to the framework. */
  function Answer(variant: Variant, e: HttpError): Response {
    match variant
    case AsWritten => Returned(e)
    case Corrected => Raised(e)
  }

  /**
   * `root`: a redirect with status 307 to the first configured base URL,
   * quoted for the `location` header. An instances value that is truthy
   * but not a table raises.
   */
  function Root(variant: Variant, config: Fields): (r: Response)
    ensures r.Redirect? ==> r.status == 307 && Instances(config).Obj? && Instances(config).fields != []
                             && r.location == Url.Quote(Instances(config).fields[0].0)
    ensures !Truthy(Instances(config)) ==> r == Answer(variant, HttpError(500, "No WakaTime instances configured."))
    ensures Instances(config).Obj? && Instances(config).fields != [] ==> r.Redirect?
  {
    var instances := Instances(config);
    match NoInstancesCheck(instances)
    case Some(e) => Answer(variant, e)
    case None =>
      match instances
      case Obj(fs) => Redirect(307, Url.Quote(fs[0].0))
      case _ => ServerError
  }

  /** The inbound `authorization` header, if any. */
  function Authorization(req: Request): Option<string> {
    if "authorization" in req.headers then Some(req.headers["authorization"]) else None
  }

  /** The credential gate, in the chosen variant. */
  function Admission(variant: Variant, config: Fields, req: Request): (v: Gate.Verdict)
    ensures variant == Corrected ==> v == Gate.Check(config, Authorization(req))
    ensures variant == AsWritten && Authorization(req).Some? ==> v == Gate.Check(config, Authorization(req))
    ensures variant == AsWritten && Authorization(req).None? ==> v == Gate.Unprocessable
  {
    match variant
    case AsWritten => Gate.CheckAsWritten(config, Authorization(req))
    case Corrected => Gate.Check(config, Authorization(req))
  }

  /** What a call does when it runs: the request goes to the base URL joined with the route's path. */
  function Run(req: Request, job: Job): (t: Trace)
    ensures t == Send(req, Url.MakeUrl(job.base, req.path), job.key, job.expected, job.reply)
    ensures t.sent.Some? ==> Text.StartsWith(t.sent.value.url, job.base) && Text.EndsWith(t.sent.value.url, req.path)
  {
    Send(req, Url.MakeUrl(job.base, req.path), job.key, job.expected, job.reply)
  }

  /**
   * The calls to the secondaries `rest`, the first of which is instance
   * number `offset`: one each, in order, each expecting the primary's status.
   */
  function Mirror(rest: Fields, offset: nat, expected: int, upstream: nat -> Upstream): (js: seq<Job>)
    ensures |js| == |rest|
    ensures forall j :: 0 <= j < |rest| ==> js[j] == Job(rest[j].0, rest[j].1, Some(expected), upstream(offset + j))
    decreases |rest|
  {
    if rest == [] then []
    else
      [Job(rest[0].0, rest[0].1, Some(expected), upstream(offset))] + Mirror(rest[1..], offset + 1, expected, upstream)
  }

  /**
   * The relay proper, for a non-empty instance table `fs`: instance `i`
   * answers with `upstream(i)`. A primary call that raises raises before
   * any secondary is started; a status-bar edit that raises does so after
   * they were started.
   */
  function FanOut(config: Fields, req: Request, fs: Fields, upstream: nat -> Upstream): (h: Handled)
    requires fs != []
    ensures h.primary == Some(Run(req, Job(fs[0].0, fs[0].1, None, upstream(0))))
    ensures h.primary.value.outcome.None? ==> h.response == ServerError && h.secondaries == []
    ensures h.primary.value.outcome.Some? ==>
      h.secondaries == Mirror(fs[1..], 1, h.primary.value.outcome.value.status, upstream)
    ensures h.response.Forwarded? ==> h.primary.value.outcome.Some? && h.access.Some?
    ensures h.primary.value.outcome.Some? ==>
      var o := h.primary.value.outcome.value;
      match StatusBar.Transform(req.path, o.content, StatusBar.Template(config))
      case Some(c) => h.response == Forwarded(o.status, c, o.headers, o.contentType)
      case None => h.response == ServerError
  {
    var primary := Run(req, Job(fs[0].0, fs[0].1, None, upstream(0)));
    match primary.outcome
    case None => Handled(ServerError, Some(primary), [], None)
    case Some(o) =>
      var secondaries := Mirror(fs[1..], 1, o.status, upstream);
      match StatusBar.Transform(req.path, o.content, StatusBar.Template(config))
      case None => Handled(ServerError, Some(primary), secondaries, None)
      case Some(c) =>
        Handled(Forwarded(o.status, c, o.headers, o.contentType), Some(primary), secondaries,
                Some(AccessLine(req.verb, "/" + req.path, o.status, StatusPhrase(o.status))))
  }

  /**
   * `catch_everything` behind `verify_key`: the gate, then the instance
   * check, then the relay.
   */
  function CatchAll(variant: Variant, config: Fields, req: Request, upstream: nat -> Upstream): (h: Handled)
    ensures Admission(variant, config, req) != Gate.Admit ==> h.primary.None? && h.secondaries == [] && h.access.None?
    ensures h.primary.Some? ==> Admission(variant, config, req) == Gate.Admit && Truthy(Instances(config))
    ensures Admission(variant, config, req) == Gate.Unprocessable ==> h.response == Unprocessable
    ensures Admission(variant, config, req) == Gate.Crash ==> h.response == ServerError
  {
    match Admission(variant, config, req)
    case Refuse(status, detail) => Handled(Refused(status, detail), None, [], None)
    case Unprocessable => Handled(Unprocessable, None, [], None)
    case Crash => Handled(ServerError, None, [], None)
    case Admit =>
      var instances := Instances(config);
      match NoInstancesCheck(instances)
      case Some(e) => Handled(Answer(variant, e), None, [], None)
      case None =>
        match instances
        case Obj(fs) => FanOut(config, req, fs, upstream)
        case _ => Handled(ServerError, None, [], None)
  }

  /** A refused request gets the gate's status and reason and reaches no instance. */
  lemma RefusedNotDispatched(variant: Variant, config: Fields, req: Request, upstream: nat -> Upstream, status: int, detail: string)
    requires Admission(variant, config, req) == Gate.Refuse(status, detail)
    ensures var h := CatchAll(variant, config, req, upstream);
      h.response == Refused(status, detail) && h.primary.None? && h.secondaries == []
  {
  }

  /** Without instances the corrected handler raises 500 and reaches no instance. */
  lemma NoInstancesRefused(config: Fields, req: Request, upstream: nat -> Upstream)
    requires Admission(Corrected, config, req) == Gate.Admit
    requires Instances(config) == Obj([])
    ensures var h := CatchAll(Corrected, config, req, upstream);
      h.response == Refused(500, "No WakaTime instances configured.") && h.primary.None? && h.secondaries == []
  {
  }

  /**
   * The handler as written returns the error instead of raising it, so
   * the client sees status 200 with the error's attributes as the body.
   */
  lemma EmptyInstancesAnswer200AsWritten(config: Fields, req: Request, upstream: nat -> Upstream)
    requires Admission(AsWritten, config, req) == Gate.Admit
    requires Instances(config) == Obj([])
    ensures var h := CatchAll(AsWritten, config, req, upstream);
      h.response.Forwarded? && h.response.status == 200 && h.primary.None?
    ensures CatchAll(Corrected, config, req, upstream).response.status == 500
  {
    assert Admission(Corrected, config, req) == Gate.Admit;
  }

  /**
   * An admitted request with a non-empty instance table is relayed to the
   * first instance at the joined URL with no expected status; when that
   * call completes, every other instance gets the same request, in order,
   * expecting the primary's status.
   */
  lemma PrimaryThenSecondaries(variant: Variant, config: Fields, req: Request, upstream: nat -> Upstream, fs: Fields)
    requires Admission(variant, config, req) == Gate.Admit
    requires Instances(config) == Obj(fs) && fs != []
    ensures var h := CatchAll(variant, config, req, upstream);
      && h.primary == Some(Send(req, Url.MakeUrl(fs[0].0, req.path), fs[0].1, None, upstream(0)))
      && (h.primary.value.outcome.Some? ==>
            && |h.secondaries| == |fs| - 1
            && forall j :: 1 <= j < |fs| ==>
                 h.secondaries[j - 1] == Job(fs[j].0, fs[j].1, Some(h.primary.value.outcome.value.status), upstream(j)))
      && (h.primary.value.outcome.None? ==> h.response == ServerError && h.secondaries == [])
  {
    var h := CatchAll(variant, config, req, upstream);
    assert h == FanOut(config, req, fs, upstream);
    if h.primary.value.outcome.Some? {
      forall j | 1 <= j < |fs|
        ensures h.secondaries[j - 1] == Job(fs[j].0, fs[j].1, Some(h.primary.value.outcome.value.status), upstream(j))
      {
        assert fs[1..][j - 1] == fs[j];
      }
    }
  }

  /**
   * A relayed response carries the primary's status, headers without
   * `content-length`, and content type; off the two status-bar paths its
   * body is the primary's answer, decoded as JSON when the content type
   * says so and as text otherwise, and an answered primary is always
   * relayed there.
   */
  lemma ResponseMirrorsPrimary(variant: Variant, config: Fields, req: Request, upstream: nat -> Upstream)
    ensures var h := CatchAll(variant, config, req, upstream);
      h.response.Forwarded? && h.primary.Some? ==>
        && upstream(0).Reply?
        && h.response.status == upstream(0).status
        && "content-length" !in h.response.headers
        && (forall k :: k in upstream(0).headers && k != "content-length" ==> k in h.response.headers && h.response.headers[k] == upstream(0).headers[k])
        && h.response.mediaType == HeaderOr(upstream(0).headers, "content-type", "")
        && (!StatusBar.IsStatusBarPath(req.path) ==>
              h.response.content ==
                if Text.StartsWith(HeaderOr(upstream(0).headers, "content-type", ""), "application/json")
                then JsonBody(upstream(0).json.value) else TextBody(upstream(0).text))
        && h.access == Some(AccessLine(req.verb, "/" + req.path, h.response.status, StatusPhrase(h.response.status)))
    ensures var h := CatchAll(variant, config, req, upstream);
      h.primary.Some? && h.primary.value.outcome.Some? && !StatusBar.IsStatusBarPath(req.path) ==> h.response.Forwarded?
  {
  }

  /**
   * Off the status-bar paths, an admitted request whose primary call
   * completes is answered with the primary's status, headers without
   * `content-length`, content type and decoded body.
   */
  lemma PrimaryAnswerForwarded(variant: Variant, config: Fields, req: Request, upstream: nat -> Upstream, fs: Fields)
    requires Admission(variant, config, req) == Gate.Admit
    requires Instances(config) == Obj(fs) && fs != []
    requires Run(req, Job(fs[0].0, fs[0].1, None, upstream(0))).outcome.Some?
    requires !StatusBar.IsStatusBarPath(req.path)
    ensures var o := Run(req, Job(fs[0].0, fs[0].1, None, upstream(0))).outcome.value;
      CatchAll(variant, config, req, upstream).response == Forwarded(o.status, o.content, o.headers, o.contentType)
    ensures var r := CatchAll(variant, config, req, upstream).response;
      && upstream(0).Reply?
      && r.Forwarded? && r.status == upstream(0).status
      && r.mediaType == HeaderOr(upstream(0).headers, "content-type", "")
      && "content-length" !in r.headers
      && (forall k :: k in upstream(0).headers && k != "content-length" ==> k in r.headers && r.headers[k] == upstream(0).headers[k])
      && r.content == (if Text.StartsWith(HeaderOr(upstream(0).headers, "content-type", ""), "application/json")
                       then JsonBody(upstream(0).json.value) else TextBody(upstream(0).text))
  {
    assert CatchAll(variant, config, req, upstream) == FanOut(config, req, fs, upstream);
  }

  /**
   * Only the primary's answer decides the response and the access line:
   * the secondaries' answers, whatever they are, cannot change them.
   */
  lemma SecondariesCannotAffectResponse(variant: Variant, config: Fields, req: Request, up1: nat -> Upstream, up2: nat -> Upstream)
    requires up1(0) == up2(0)
    ensures CatchAll(variant, config, req, up1).response == CatchAll(variant, config, req, up2).response
    ensures CatchAll(variant, config, req, up1).access == CatchAll(variant, config, req, up2).access
    ensures CatchAll(variant, config, req, up1).primary == CatchAll(variant, config, req, up2).primary
  {
    var instances := Instances(config);
    if Admission(variant, config, req) == Gate.Admit && instances.Obj? && instances.fields != [] {
      CatchAllFansOut(variant, config, req, up1, instances.fields);
      CatchAllFansOut(variant, config, req, up2, instances.fields);
      FanOutIgnoresSecondaries(config, req, instances.fields, up1, up2);
    } else {
      CatchAllWithoutFanOut(variant, config, req, up1, up2);
    }
  }

  /** An admitted request with at least one instance is handled by the fan-out. */
  lemma CatchAllFansOut(variant: Variant, config: Fields, req: Request, upstream: nat -> Upstream, fs: Fields)
    requires Admission(variant, config, req) == Gate.Admit
    requires Instances(config) == Obj(fs) && fs != []
    ensures CatchAll(variant, config, req, upstream) == FanOut(config, req, fs, upstream)
  {
  }

  /** Every other request is answered without consulting any upstream at all. */
  lemma CatchAllWithoutFanOut(variant: Variant, config: Fields, req: Request, up1: nat -> Upstream, up2: nat -> Upstream)
    requires !(Admission(variant, config, req) == Gate.Admit && Instances(config).Obj? && Instances(config).fields != [])
    ensures CatchAll(variant, config, req, up1) == CatchAll(variant, config, req, up2)
  {
  }

  /** The fan-out's response, access line and primary call depend on the primary's answer alone. */
  lemma FanOutIgnoresSecondaries(config: Fields, req: Request, fs: Fields, up1: nat -> Upstream, up2: nat -> Upstream)
    requires fs != [] && up1(0) == up2(0)
    ensures FanOut(config, req, fs, up1).response == FanOut(config, req, fs, up2).response
    ensures FanOut(config, req, fs, up1).access == FanOut(config, req, fs, up2).access
    ensures FanOut(config, req, fs, up1).primary == FanOut(config, req, fs, up2).primary
  {
  }

  /**
   * `/` redirects to the first configured base URL, quoted; a base URL made
   * of characters the quoting keeps, as URLs normally are, is the location
   * verbatim.
   */
  lemma RootRedirectsToPrimary(variant: Variant, config: Fields, fs: Fields)
    requires Instances(config) == Obj(fs) && fs != []
    ensures Root(variant, config) == Redirect(307, Url.Quote(fs[0].0))
    ensures (forall i :: 0 <= i < |fs[0].0| ==> Url.KeptByQuote(fs[0].0[i])) ==> Root(variant, config) == Redirect(307, fs[0].0)
  {
    if forall i :: 0 <= i < |fs[0].0| ==> Url.KeptByQuote(fs[0].0[i]) {
      Url.QuoteKeeps(fs[0].0);
    }
  }

  /** On `/` without instances, the handler as written also answers 200 rather than 500. */
  lemma RootWithoutInstances(config: Fields)
    requires !Truthy(Instances(config))
    ensures Root(Corrected, config) == Refused(500, "No WakaTime instances configured.")
    ensures Root(AsWritten, config).Forwarded? && Root(AsWritten, config).status == 200
  {
  }

  /**
   * On the status bar path, with the default template, a primary answer
   * whose `data.grand_total.text` is non-empty reaches the client with
   * that text suffixed " (Relayed)" and nothing else in the body changed.
   */
  lemma StatusBarRelayed(variant: Variant, config: Fields, req: Request, upstream: nat -> Upstream,
                         fs: Fields, o: Outcome, top: Fields, d: Fields, g: Fields, x: string)
    requires Admission(variant, config, req) == Gate.Admit
    requires Instances(config) == Obj(fs) && fs != []
    requires StatusBar.IsStatusBarPath(req.path) && StatusBar.Template(config) == Str(StatusBar.DefaultTemplate)
    requires Run(req, Job(fs[0].0, fs[0].1, None, upstream(0))).outcome == Some(o)
    requires o.content == JsonBody(Obj(top))
    requires Lookup(top, "data") == Some(Obj(d))
    requires Lookup(d, "grand_total") == Some(Obj(g))
    requires Lookup(g, "text") == Some(Str(x)) && x != ""
    ensures var r := CatchAll(variant, config, req, upstream).response;
      && r.Forwarded? && r.status == o.status
      && r.content.JsonBody? && r.content.value.Obj?
      && StatusBar.TextRewritten(top, r.content.value.fields, x + " (Relayed)")
  {
    assert CatchAll(variant, config, req, upstream) == FanOut(config, req, fs, upstream);
    StatusBar.DefaultTemplateRelayed(req.path, top, d, g, x);
  }
}

=== FILE: statusbar.dfy ===
/**
 * The edit the relay makes to the primary instance's answer on the status
 * bar endpoint: the human-readable total, `data.grand_total.text`, is put
 * through a configurable template.
 */
module StatusBar {
  import opened Common
  import opened Json
  import opened Text
  import opened Dispatch

  const Placeholder := "%TEXT%"
  const DefaultTemplate := "%TEXT% (Relayed)"

  /** The status bar endpoint, under both of its spellings. */
  predicate IsStatusBarPath(path: string) {
    path == "users/current/statusbar/today" || path == "users/current/status_bar/today"
  }

  /** `CONFIG.get("time_text", "%TEXT% (Relayed)")`. */
  function Template(config: Fields): Value {
    Get(config, "time_text", Str(DefaultTemplate))
  }

  /** `fs'` has the keys of `fs` and agrees with it everywhere but at `k`. */
  ghost predicate SameExcept(fs: Fields, fs': Fields, k: string) {
    Keys(fs') == Keys(fs) && forall k' :: k' != k ==> Lookup(fs', k') == Lookup(fs, k')
  }

  /** `top'` is `top` with `data.grand_total.text` set to `text` and nothing else changed. */
  ghost predicate TextRewritten(top: Fields, top': Fields, text: string) {
    && SameExcept(top, top', "data")
    && match (Lookup(top, "data"), Lookup(top', "data"))
       case (Some(Obj(d)), Some(Obj(d'))) =>
         && SameExcept(d, d', "grand_total")
         && (match (Lookup(d, "grand_total"), Lookup(d', "grand_total"))
             case (Some(Obj(g)), Some(Obj(g'))) => SameExcept(g, g', "text") && Lookup(g', "text") == Some(Str(text))
             case _ => false)
       case _ => false
  }

  /** The edit at one level of the body: no change, new fields, or an exception. */
  datatype Edit = Keep | Replace(fields: Fields) | Raise

  /**
   * The edit of the `grand_total` object: a non-empty text becomes the
   * template with every placeholder replaced by it. A template that is not
   * a string, or a non-empty text that is not a string, raises.
   */
  function EditText(g: Fields, template: Value): (e: Edit)
    ensures e == Keep <==> !Truthy(Get(g, "text", Null))
    ensures e.Replace? <==> Truthy(Get(g, "text", Null)) && template.Str? && Get(g, "text", Null).Str?
    ensures e.Replace? ==> SameExcept(g, e.fields, "text")
    ensures e.Replace? && template.Str? && Get(g, "text", Null).Str? ==>
      Lookup(e.fields, "text") == Some(Str(ReplaceAll(template.s, Placeholder, Get(g, "text", Null).s)))
  {
    var text := Get(g, "text", Null);
    if !Truthy(text) then Keep
    else if template.Str? && text.Str? then
      assert "text" in Keys(g);
      UpdateFrame(g, "text", Str(ReplaceAll(template.s, Placeholder, text.s)));
      Replace(Update(g, "text", Str(ReplaceAll(template.s, Placeholder, text.s))))
    else Raise
  }

  /**
   * The edit of the `data` object: its `grand_total`, an empty object when
   * missing (so nothing changes); a `grand_total` that is not an object
   * raises; otherwise the edit of its text decides.
   */
  function EditTotal(d: Fields, template: Value): (e: Edit)
    ensures Lookup(d, "grand_total").None? ==> e == Keep
    ensures Lookup(d, "grand_total").Some? && !Lookup(d, "grand_total").value.Obj? ==> e == Raise
    ensures Lookup(d, "grand_total").Some? && Lookup(d, "grand_total").value.Obj? ==>
      && (e == Keep <==> EditText(Lookup(d, "grand_total").value.fields, template) == Keep)
      && (e == Raise <==> EditText(Lookup(d, "grand_total").value.fields, template) == Raise)
    ensures e.Replace? ==> SameExcept(d, e.fields, "grand_total")
    ensures e.Replace? ==> var g := Get(d, "grand_total", Obj([]));
      && Lookup(d, "grand_total") == Some(g) && g.Obj? && EditText(g.fields, template).Replace?
      && Lookup(e.fields, "grand_total") == Some(Obj(EditText(g.fields, template).fields))
  {
    match Get(d, "grand_total", Obj([]))
    case Obj(g) =>
      (match EditText(g, template)
       case Replace(g') =>
         assert "grand_total" in Keys(d);
         UpdateFrame(d, "grand_total", Obj(g'));
         Replace(Update(d, "grand_total", Obj(g')))
       case Keep => Keep
       case Raise => Raise)
    case _ => Raise
  }

  /**
   * The edit of the top-level object: its `data`, an empty object when
   * missing (so nothing changes); a `data` that is not an object raises;
   * otherwise the edit of `data` decides.
   */
  function EditData(top: Fields, template: Value): (e: Edit)
    ensures Lookup(top, "data").None? ==> e == Keep
    ensures Lookup(top, "data").Some? && !Lookup(top, "data").value.Obj? ==> e == Raise
    ensures Lookup(top, "data").Some? && Lookup(top, "data").value.Obj? ==>
      && (e == Keep <==> EditTotal(Lookup(top, "data").value.fields, template) == Keep)
      && (e == Raise <==> EditTotal(Lookup(top, "data").value.fields, template) == Raise)
    ensures e.Replace? ==> SameExcept(top, e.fields, "data")
    ensures e.Replace? ==> var d := Get(top, "data", Obj([]));
      && Lookup(top, "data") == Some(d) && d.Obj? && EditTotal(d.fields, template).Replace?
      && Lookup(e.fields, "data") == Some(Obj(EditTotal(d.fields, template).fields))
  {
    match Get(top, "data", Obj([]))
    case Obj(d) =>
      (match EditTotal(d, template)
       case Replace(d') =>
         assert "data" in Keys(top);
         UpdateFrame(top, "data", Obj(d'));
         Replace(Update(top, "data", Obj(d')))
       case Keep => Keep
       case Raise => Raise)
    case _ => Raise
  }

  /**
   * The edit on the status bar paths. A missing `data` or `grand_total`
   * reads as an empty object and an empty or missing text leaves the body
   * alone; a body that is not an object at each level makes the edit raise
   * (`None`), as do the template and text cases of `EditText`.
   */
  function Transform(path: string, content: Payload, template: Value): (r: Option<Payload>)
    ensures !IsStatusBarPath(path) ==> r == Some(content)
    ensures IsStatusBarPath(path) && content.TextBody? ==> r.None?
    ensures IsStatusBarPath(path) && content.JsonBody? && !content.value.Obj? ==> r.None?
    ensures IsStatusBarPath(path) && content.JsonBody? && content.value.Obj? ==>
      (r.None? <==> EditData(content.value.fields, template) == Raise)
    ensures r.Some? && r.value != content ==> IsStatusBarPath(path) && content.JsonBody? && r.value.JsonBody?
  {
    if !IsStatusBarPath(path) then Some(content)
    else
      match content
      case TextBody(_) => None
      case JsonBody(Obj(top)) =>
        (match EditData(top, template)
         case Keep => Some(content)
         case Replace(top') => Some(JsonBody(Obj(top')))
         case Raise => None)
      case JsonBody(_) => None
  }

  /**
   * On a status bar path, a non-empty text under `data.grand_total` becomes
   * the template with every placeholder replaced by it; every other field,
   * at every level, is unchanged.
   */
  lemma TextSubstituted(path: string, top: Fields, d: Fields, g: Fields, x: string, t: string)
    requires IsStatusBarPath(path)
    requires Lookup(top, "data") == Some(Obj(d))
    requires Lookup(d, "grand_total") == Some(Obj(g))
    requires Lookup(g, "text") == Some(Str(x)) && x != ""
    ensures var r := Transform(path, JsonBody(Obj(top)), Str(t));
      && r.Some? && r.value.JsonBody? && r.value.value.Obj?
      && TextRewritten(top, r.value.value.fields, ReplaceAll(t, Placeholder, x))
  {
    var g' := Update(g, "text", Str(ReplaceAll(t, Placeholder, x)));
    var d' := Update(d, "grand_total", Obj(g'));
    var top' := Update(top, "data", Obj(d'));
    EditTextSets(g, x, t);
    EditTotalSets(d, g, g', Str(t));
    EditDataSets(top, d, d', Str(t));
    TransformReplaces(path, top, Str(t), top');
    RewrittenByUpdates(top, d, g, ReplaceAll(t, Placeholder, x));
  }

  /** On a status bar path, an edit that replaces the top-level fields is the new body. */
  lemma TransformReplaces(path: string, top: Fields, template: Value, top': Fields)
    requires IsStatusBarPath(path)
    requires EditData(top, template) == Replace(top')
    ensures Transform(path, JsonBody(Obj(top)), template) == Some(JsonBody(Obj(top')))
  {
  }

  /** A non-empty string text is set to the substituted template. */
  lemma EditTextSets(g: Fields, x: string, t: string)
    requires Lookup(g, "text") == Some(Str(x)) && x != ""
    ensures EditText(g, Str(t)) == Replace(Update(g, "text", Str(ReplaceAll(t, Placeholder, x))))
  {
  }

  /** A replaced `grand_total` is written back into `data`. */
  lemma EditTotalSets(d: Fields, g: Fields, g': Fields, template: Value)
    requires Lookup(d, "grand_total") == Some(Obj(g))
    requires EditText(g, template) == Replace(g')
    ensures EditTotal(d, template) == Replace(Update(d, "grand_total", Obj(g')))
  {
  }

  /** A replaced `data` is written back into the body. */
  lemma EditDataSets(top: Fields, d: Fields, d': Fields, template: Value)
    requires Lookup(top, "data") == Some(Obj(d))
    requires EditTotal(d, template) == Replace(d')
    ensures EditData(top, template) == Replace(Update(top, "data", Obj(d')))
  {
  }

  /** Three nested updates of present keys rewrite the text and nothing else. */
  lemma RewrittenByUpdates(top: Fields, d: Fields, g: Fields, text: string)
    requires Lookup(top, "data") == Some(Obj(d))
    requires Lookup(d, "grand_total") == Some(Obj(g))
    requires "text" in Keys(g)
    ensures var g' := Update(g, "text", Str(text));
      var d' := Update(d, "grand_total", Obj(g'));
      TextRewritten(top, Update(top, "data", Obj(d')), text)
  {
    var g' := Update(g, "text", Str(text));
    var d' := Update(d, "grand_total", Obj(g'));
    UpdateFrame(g, "text", Str(text));
    UpdateFrame(d, "grand_total", Obj(g'));
    UpdateFrame(top, "data", Obj(d'));
  }

  /** Without `data` or `grand_total` the body passes through unchanged. */
  lemma MissingTotalLeavesBody(path: string, top: Fields, template: Value)
    requires IsStatusBarPath(path)
    requires Lookup(top, "data").None? || (Lookup(top, "data").value.Obj? && Lookup(Lookup(top, "data").value.fields, "grand_total").None?)
    ensures Transform(path, JsonBody(Obj(top)), template) == Some(JsonBody(Obj(top)))
  {
  }

  /** An empty or missing text leaves the body unchanged, whatever the template. */
  lemma EmptyTextLeavesBody(path: string, top: Fields, d: Fields, g: Fields, template: Value)
    requires IsStatusBarPath(path)
    requires Lookup(top, "data") == Some(Obj(d))
    requires Lookup(d, "grand_total") == Some(Obj(g))
    requires !Truthy(Get(g, "text", Null))
    ensures Transform(path, JsonBody(Obj(top)), template) == Some(JsonBody(Obj(top)))
  {
    assert EditText(g, template) == Keep;
    assert EditTotal(d, template) == Keep;
    assert EditData(top, template) == Keep;
  }

  /** The default template appends " (Relayed)" to any text. */
  lemma DefaultTemplateAppends(x: string)
    ensures ReplaceAll(DefaultTemplate, Placeholder, x) == x + " (Relayed)"
  {
    var suffix := " (Relayed)";
    assert DefaultTemplate == Placeholder + suffix;
    ReplaceLeading(Placeholder, suffix, x);
    assert Placeholder[0] == '%' && '%' !in suffix;
    NoOccurrenceWithoutHead(suffix, Placeholder);
    ReplaceWithoutOccurrence(suffix, Placeholder, x);
  }

  /** Under the default template a non-empty text gains the suffix " (Relayed)". */
  lemma DefaultTemplateRelayed(path: string, top: Fields, d: Fields, g: Fields, x: string)
    requires IsStatusBarPath(path)
    requires Lookup(top, "data") == Some(Obj(d))
    requires Lookup(d, "grand_total") == Some(Obj(g))
    requires Lookup(g, "text") == Some(Str(x)) && x != ""
    ensures var r := Transform(path, JsonBody(Obj(top)), Str(DefaultTemplate));
      && r.Some? && r.value.JsonBody? && r.value.value.Obj?
      && TextRewritten(top, r.value.value.fields, x + " (Relayed)")
  {
    TextSubstituted(path, top, d, g, x, DefaultTemplate);
    DefaultTemplateAppends(x);
  }
}

=== FILE: text.dfy ===
/** String operations the relay relies on, with Python's `str` semantics. */
module Text {

  /** `s.startswith(p)`. */
  predicate StartsWith(s: string, p: string) {
    |p| <= |s| && s[..|p|] == p
  }

  /** `s.endswith(p)`. */
  predicate EndsWith(s: string, p: string) {
    |p| <= |s| && s[|s| - |p|..] == p
  }

  /** The index of the first character of `s` in `cs`, or `|s|` when there is none. */
  function IndexOfAny(s: string, cs: set<char>): (i: nat)
    ensures i <= |s|
    ensures i < |s| ==> s[i] in cs
    ensures forall j :: 0 <= j < i ==> s[j] !in cs
  {
    if s == [] then 0
    else if s[0] in cs then 0
    else 1 + IndexOfAny(s[1..], cs)
  }

  /** The index of the first `c` in `s`, or `|s|` when there is none. */
  function IndexOf(s: string, c: char): (i: nat)
    ensures i <= |s|
    ensures i < |s| ==> s[i] == c
    ensures forall j :: 0 <= j < i ==> s[j] != c
  {
    IndexOfAny(s, {c})
  }

  /** `s.rfind(c)`: the index of the last `c` in `s`, or -1. */
  function LastIndexOf(s: string, c: char): (i: int)
    ensures -1 <= i < |s|
    ensures 0 <= i ==> s[i] == c
    ensures forall j :: i < j < |s| ==> s[j] != c
  {
    if s == [] then -1
    else if s[|s| - 1] == c then |s| - 1
    else LastIndexOf(s[..|s| - 1], c)
  }

  /** The longest prefix of `s` without `c`: the first field of `s.split(c)`. */
  function TakeUntil(s: string, c: char): (r: string)
    ensures StartsWith(s, r)
    ensures c !in r
    ensures |r| < |s| ==> s[|r|] == c
  {
    s[..IndexOf(s, c)]
  }

  /** A first character outside `cs` moves the first hit of `cs` one place on. */
  lemma {:induction false} IndexOfAnyAppend(a: string, b: string, cs: set<char>)
    requires forall j :: 0 <= j < |a| ==> a[j] !in cs
    ensures IndexOfAny(a + b, cs) == |a| + IndexOfAny(b, cs)
    decreases |a|
  {
    if a != [] {
      assert (a + b)[0] == a[0];
      assert (a + b)[1..] == a[1..] + b;
      IndexOfAnyAppend(a[1..], b, cs);
    } else {
      assert a + b == b;
    }
  }

  /** `p` occurs in `s` starting at index `i`. */
  predicate OccursAt(s: string, p: string, i: int) {
    0 <= i && i + |p| <= |s| && s[i..i + |p|] == p
  }

  /** `p in s`. */
  predicate Occurs(s: string, p: string) {
    exists i :: 0 <= i <= |s| && OccursAt(s, p, i)
  }

  /**
   * `s.replace(pat, rep)`: every occurrence of `pat`, found left to right
   * without overlap, replaced by `rep`; the inserted text is not searched
   * again. An empty `pat` matches between every two characters and at both
   * ends, as in Python.
   */
  function ReplaceAll(s: string, pat: string, rep: string): string
    decreases |s|
  {
    if pat == [] then
      (if s == [] then rep else rep + [s[0]] + ReplaceAll(s[1..], pat, rep))
    else if |s| < |pat| then s
    else if s[..|pat|] == pat then rep + ReplaceAll(s[|pat|..], pat, rep)
    else [s[0]] + ReplaceAll(s[1..], pat, rep)
  }

  /** A text in which `pat` never occurs comes out of `ReplaceAll` unchanged. */
  lemma {:induction false} ReplaceWithoutOccurrence(s: string, pat: string, rep: string)
    requires pat != []
    requires !Occurs(s, pat)
    ensures ReplaceAll(s, pat, rep) == s
    decreases |s|
  {
    if |s| >= |pat| {
      assert !OccursAt(s, pat, 0);
      assert s[0..|pat|] == s[..|pat|];
      assert !Occurs(s[1..], pat) by {
        forall i | OccursAt(s[1..], pat, i)
          ensures false
        {
          assert s[1..][i..i + |pat|] == s[i + 1..i + 1 + |pat|];
          assert OccursAt(s, pat, i + 1);
        }
      }
      ReplaceWithoutOccurrence(s[1..], pat, rep);
      assert [s[0]] + s[1..] == s;
    }
  }

  /**
   * A case of `ReplaceAll`: a leading occurrence of `pat` is replaced and
   * the scan resumes after it. `DefaultTemplateAppends` builds on it.
   */
  lemma ReplaceLeading(pat: string, t: string, rep: string)
    requires pat != []
    ensures ReplaceAll(pat + t, pat, rep) == rep + ReplaceAll(t, pat, rep)
  {
    assert (pat + t)[..|pat|] == pat;
    assert (pat + t)[|pat|..] == t;
  }

  /** `pat` cannot occur in a text that lacks its first character. */
  lemma NoOccurrenceWithoutHead(s: string, pat: string)
    requires pat != []
    requires pat[0] !in s
    ensures !Occurs(s, pat)
  {
  }
}

=== FILE: url.dfy ===
/**
 * Joining an instance's base URL with the requested path. The join looks at
 * the path component of the base URL as Python's `urllib.parse.urlparse`
 * computes it: an optional scheme, an optional `//` authority, then the path
 * up to the fragment and query, without `;parameters` of its last segment.
 * Also the percent-quoting a redirect applies to the URL in its `location`
 * header.
 */
module Url {
  import opened Text
  import opened Bytes

  predicate IsAsciiLetter(c: char) {
    'a' <= c <= 'z' || 'A' <= c <= 'Z'
  }

  /** The characters a URL scheme may use. */
  predicate IsSchemeChar(c: char) {
    IsAsciiLetter(c) || '0' <= c <= '9' || c == '+' || c == '-' || c == '.'
  }

  /** ASCII lower case, which is all a scheme can need. */
  function Lower(s: string): (r: string)
    ensures |r| == |s|
  {
    if s == [] then []
    else [if 'A' <= s[0] <= 'Z' then (s[0] as int + 32) as char else s[0]] + Lower(s[1..])
  }

  /** The schemes for which `urlparse` splits off `;parameters`. */
  const UsesParams: set<string> :=
    {"", "ftp", "hdl", "prospero", "http", "imap", "https", "shttp", "rtsp",
     "rtsps", "rtspu", "sip", "sips", "mms", "sftp", "tel"}

  /**
   * The scheme (lower-cased) and the rest of the URL. The text before the
   * first `:` is a scheme when it is non-empty, starts with a letter and
   * uses only scheme characters; otherwise there is no scheme.
   */
  function SplitScheme(url: string): (r: (string, string))
  {
    var i := IndexOf(url, ':');
    if 0 < i < |url| && IsAsciiLetter(url[0]) && (forall j :: 0 <= j < i ==> IsSchemeChar(url[j]))
    then (Lower(url[..i]), url[i + 1..])
    else ("", url)
  }

  /** What follows the authority: everything from the first `/`, `?` or `#` after a leading `//`. */
  function AfterAuthority(rest: string): string {
    if StartsWith(rest, "//") then
      var t := rest[2..];
      t[IndexOfAny(t, {'/', '?', '#'})..]
    else rest
  }

  /** The path without the `;parameters` of its last segment. */
  function StripParams(p: string): (r: string)
    ensures StartsWith(p, r)
  {
    if '/' in p then
      var j := LastIndexOf(p, '/');
      var k := j + IndexOf(p[j..], ';');
      p[..k]
    else p[..IndexOf(p, ';')]
  }

  /** The text before the fragment and the query. */
  function BeforeQuery(s: string): (r: string)
    ensures StartsWith(s, r)
    ensures '#' !in r && '?' !in r
  {
    var t := s[..IndexOf(s, '#')];
    var r := t[..IndexOf(t, '?')];
    assert r == s[..|r|];
    r
  }

  /** `urlparse(url).path`: never holds the query or the fragment. */
  function PathOf(url: string): (r: string)
    ensures '#' !in r && '?' !in r
  {
    var (scheme, rest) := SplitScheme(url);
    var p := BeforeQuery(AfterAuthority(rest));
    if ';' in p && scheme in UsesParams then
      var r := StripParams(p);
      assert forall i :: 0 <= i < |r| ==> r[i] == p[i];
      r
    else p
  }

  /**
   * `make_url`: the base URL and the path, with a `/` between them unless
   * the base URL's path component already ends in one.
   */
  function MakeUrl(base: string, path: string): (r: string)
    ensures StartsWith(r, base) && EndsWith(r, path)
    ensures r == base + path || r == base + "/" + path
    ensures r == base + path <==> EndsWith(PathOf(base), "/")
  {
    if EndsWith(PathOf(base), "/") then base + path else base + "/" + path
  }

  /** A scheme has no `:`, so the first `:` is the one after it. */
  lemma SchemeColon(scheme: string, rest: string)
    requires forall j :: 0 <= j < |scheme| ==> IsSchemeChar(scheme[j])
    ensures IndexOf(scheme + ":" + rest, ':') == |scheme|
  {
    assert forall j :: 0 <= j < |scheme| ==> scheme[j] !in {':'};
    IndexOfAnyAppend(scheme, ":" + rest, {':'});
    assert scheme + ":" + rest == scheme + (":" + rest);
  }

  /** A well-formed scheme followed by `:` is split off and lower-cased. */
  lemma SplitSchemeOf(scheme: string, rest: string)
    requires scheme != [] && IsAsciiLetter(scheme[0])
    requires forall j :: 0 <= j < |scheme| ==> IsSchemeChar(scheme[j])
    ensures SplitScheme(scheme + ":" + rest) == (Lower(scheme), rest)
  {
    var url := scheme + ":" + rest;
    SchemeColon(scheme, rest);
    assert url[..|scheme|] == scheme;
    assert url[|scheme| + 1..] == rest;
    assert url[0] == scheme[0];
    assert forall j :: 0 <= j < |scheme| ==> url[j] == scheme[j];
  }

  /** After `//host`, the path starts at the path's own leading `/`. */
  lemma AfterAuthorityOf(host: string, path: string)
    requires forall j :: 0 <= j < |host| ==> host[j] !in {'/', '?', '#'}
    requires path == [] || path[0] == '/'
    ensures AfterAuthority("//" + host + path) == path
  {
    var rest := "//" + host + path;
    assert StartsWith(rest, "//");
    assert rest[2..] == host + path;
    IndexOfAnyAppend(host, path, {'/', '?', '#'});
    assert (host + path)[|host|..] == path;
  }

  /**
   * The path component of `scheme://host/path` is `/path` when the host has
   * no `/`, `?` or `#` and the path no `?`, `#` or `;`.
   */
  lemma PathOfAuthorityForm(scheme: string, host: string, path: string)
    requires scheme != [] && IsAsciiLetter(scheme[0])
    requires forall j :: 0 <= j < |scheme| ==> IsSchemeChar(scheme[j])
    requires forall j :: 0 <= j < |host| ==> host[j] !in {'/', '?', '#'}
    requires path == [] || path[0] == '/'
    requires forall j :: 0 <= j < |path| ==> path[j] !in {'?', '#', ';'}
    ensures PathOf(scheme + "://" + host + path) == path
  {
    assert scheme + "://" + host + path == scheme + ":" + ("//" + host + path);
    SplitSchemeOf(scheme, "//" + host + path);
    AfterAuthorityOf(host, path);
    PlainBeforeQuery(path);
    assert ';' !in path;
  }

  /** A text without `#` or `?` has no fragment or query to cut. */
  lemma PlainBeforeQuery(s: string)
    requires forall j :: 0 <= j < |s| ==> s[j] !in {'?', '#'}
    ensures BeforeQuery(s) == s
  {
    assert IndexOf(s, '#') == |s|;
    assert s[..|s|] == s;
    assert IndexOf(s, '?') == |s|;
  }

  /**
   * Joining onto `scheme://host/path` adds a separator exactly when the
   * path does not end in `/`; a base without a path always gets one.
   */
  lemma JoinAuthorityForm(scheme: string, host: string, basePath: string, path: string)
    requires scheme != [] && IsAsciiLetter(scheme[0])
    requires forall j :: 0 <= j < |scheme| ==> IsSchemeChar(scheme[j])
    requires forall j :: 0 <= j < |host| ==> host[j] !in {'/', '?', '#'}
    requires basePath == [] || basePath[0] == '/'
    requires forall j :: 0 <= j < |basePath| ==> basePath[j] !in {'?', '#', ';'}
    ensures var base := scheme + "://" + host + basePath;
      MakeUrl(base, path) == if EndsWith(basePath, "/") then base + path else base + "/" + path
  {
    PathOfAuthorityForm(scheme, host, basePath);
  }

  /** A base with no path at all, such as `https://a.example`, always gets the separator. */
  lemma JoinBareHost(scheme: string, host: string, path: string)
    requires scheme != [] && IsAsciiLetter(scheme[0])
    requires forall j :: 0 <= j < |scheme| ==> IsSchemeChar(scheme[j])
    requires forall j :: 0 <= j < |host| ==> host[j] !in {'/', '?', '#'}
    ensures MakeUrl(scheme + "://" + host, path) == scheme + "://" + host + "/" + path
  {
    assert scheme + "://" + host + "" == scheme + "://" + host;
    JoinAuthorityForm(scheme, host, "", path);
  }

  /** The characters `urllib.parse.quote` never escapes: ASCII letters, digits and `_.-~`. */
  predicate IsUnreserved(c: char) {
    IsAsciiLetter(c) || '0' <= c <= '9' || c == '_' || c == '.' || c == '-' || c == '~'
  }

  /** The extra characters a redirect keeps unescaped in its `location` header. */
  const LocationSafe: set<char> :=
    {':', '/', '%', '#', '?', '=', '@', '[', ']', '!', '$', '&', '\'', '(', ')', '*', '+', ',', ';'}

  /** A character the redirect's quoting leaves as it is. */
  predicate KeptByQuote(c: char) {
    IsUnreserved(c) || c in LocationSafe
  }

  /** An upper-case hexadecimal digit. */
  function HexDigit(n: int): (c: char)
    requires 0 <= n < 16
    ensures IsUnreserved(c)
  {
    if n < 10 then (48 + n) as char else (55 + n) as char
  }

  /** Every byte as `%XX`, in upper-case hexadecimal. */
  function PercentEncode(b: seq<byte>): (r: string)
    ensures |r| == 3 * |b|
    ensures forall i :: 0 <= i < |r| ==> KeptByQuote(r[i])
  {
    if b == [] then []
    else ['%', HexDigit(b[0] / 16), HexDigit(b[0] % 16)] + PercentEncode(b[1..])
  }

  /**
   * `quote(url, safe=...)` as a redirect applies it to its location: every
   * character outside the kept ones is replaced by the `%XX` escapes of its
   * UTF-8 bytes. An existing escape keeps its `%`.
   */
  function Quote(s: string): (r: string)
    ensures |s| <= |r|
    ensures forall i :: 0 <= i < |r| ==> KeptByQuote(r[i])
  {
    if s == [] then []
    else (if KeptByQuote(s[0]) then [s[0]] else PercentEncode(EncodeScalar(s[0]))) + Quote(s[1..])
  }

  /** A text made of kept characters only is left unchanged by quoting. */
  lemma {:induction false} QuoteKeeps(s: string)
    requires forall i :: 0 <= i < |s| ==> KeptByQuote(s[i])
    ensures Quote(s) == s
  {
    if s != [] {
      QuoteKeeps(s[1..]);
      assert [s[0]] + s[1..] == s;
    }
  }

  /** Quoting a quoted text changes nothing more. */
  lemma QuoteIdempotent(s: string)
    ensures Quote(Quote(s)) == Quote(s)
  {
    QuoteKeeps(Quote(s));
  }
}
